=== FILE: README.md ===
# SmartPlug shared-workspace coordination store, in Dafny

The SmartPlug "ClaudeTeam" setup coordinates a supervisor (the CEO dashboard) and five
worker agents through a shared workspace of JSON files:

- task records live in status buckets `pending`, `in_progress`, `review`, `completed` and `blocked`;
- messages live in one directory, keyed `<recipient>_<timestamp>`;
- agent status records, product specs and reports each have their own directory;
- notifications and decisions for the supervisor have theirs too.

Three programs act on the workspace:

- the coordination server (`SharedWorkspaceMCP`);
- the supervisor's dashboard (`CEODashboard`);
- the agent simulator (`AgentSimulator`).

This project models all three as pure transformations of one immutable `Workspace.Store`. A
directory is a map from file stem to record. A task bucket's key is present exactly when its
directory exists. The clock is a parameter (`Clock`: ISO time, numeric stamp, ISO date). A
directory walk, whose order the file system chooses, is a method that may list the files in
any order. Its contract says that the listing names every wanted file exactly once
(`Listing.Exact`, `Listing.Enumerates`).

Modules:

- `Wrappers`: `Option` and `Result`.
- `Text`: Python's `startswith`, `split(c)[0]`, `s[:n]`, string order, `isdigit`, `int` and `str`.
- `Listing`: directory listings, and insertion sorts by priority and by text.
- `Workspace`: the records, the store, the task tree and the listing of an agent's tasks.
- `Server`: the coordination server.
- `Dashboard`: the supervisor's dashboard.
- `Agent`: the agent simulator.
- `Findings`: three defects, shown as written and corrected.
- `Scenarios`: properties that span the programs.

Behaviour of the code worth knowing before reading the contracts:

- `create_task` writes `pending/<id>` without looking for an existing record, so it replaces a pending record with that id; a copy in another bucket stays, and the id is then held by two buckets.
- The notice for a completed or blocked task uses `notify_ceo`'s default priority, `"info"`.
- An agent's task list is sorted by priority only; tasks of equal priority keep the order of the directory walk.
- A status update searches pending, in_progress, review and completed, and never blocked.
- A status update into the task's own bucket deletes the task, and none of the three programs creates the review or blocked directories. Both are modelled as written. See "Findings".

## Model

| member | source | states |
|---|---|---|
| Text.Before | ceo-dashboard.py:168 | `split(c)[0]` is the longest prefix free of `c`: the whole string, or the text up to the first `c` |
| Text.Take | ceo-dashboard.py:169 | `s[:n]` is a prefix of `s` whose length is the smaller of `n` and `len(s)` |
| Text.LeTotal | infrastructure/mcp_server.py:154 | string order compares any two timestamps |
| Text.LeTransitive | infrastructure/mcp_server.py:154 | string order is transitive, so sorting by it is well defined |
| Text.LeAntisymmetric | ceo-dashboard.py:189 | two names each no greater than the other are the same name |
| Text.DecimalRoundTrip | ceo-dashboard.py:73-84 | the number printed beside a proposal passes `isdigit` and `int` reads it back |
| Listing.Select | infrastructure/mcp_server.py:83-86 | a directory walk lists every wanted file exactly once, with its record |
| Listing.EnumeratedRecord | infrastructure/mcp_server.py:83-86 | every listed record is stored under some wanted key |
| Listing.EnumerationCovers | infrastructure/mcp_server.py:83-86 | every wanted record is listed, and the listing is as long as the wanted set |
| Listing.ExactPermutation | infrastructure/mcp_server.py:88 | reordering a listing keeps it a listing of the same files |
| Listing.SortByRank | infrastructure/mcp_server.py:88 | `sorted(key=priority, reverse=True)` is a permutation of its input with priorities non-increasing |
| Listing.SortByText | infrastructure/mcp_server.py:154 | sorting by a text key is a permutation of its input, ordered ascending or descending as asked |
| Workspace.Initial | infrastructure/mcp_server.py:37-47 | the server creates pending, in_progress and completed, and creates neither review nor blocked |
| Workspace.Restamped | infrastructure/mcp_server.py:111-112 | a moved record gets the new status and update time, and every other field is kept |
| Workspace.WriteThenDelete | infrastructure/mcp_server.py:114-117 | writing the record into the target and then deleting the found file relocates the task; when both are the same bucket the task is gone |
| Workspace.MovedKeepsIdsUnique | infrastructure/mcp_server.py:114-117 | a move between two different buckets leaves every id in at most one bucket, and the moved id only in the target |
| Workspace.ListAssigned | infrastructure/mcp_server.py:81-88 | exactly the records of the given buckets assigned to the agent, each once, highest priority first |
| Server.CreateTask | infrastructure/mcp_server.py:63-75 | the task is written at `pending[task.id]`, replacing any record there, and its id is returned; no other bucket changes |
| Server.CreateOverInProgressDuplicates | infrastructure/mcp_server.py:63-75 | creating a task whose id is in progress keeps that copy, so two buckets hold the id, and a later update finds the pending copy first |
| Server.GetAgentTasks | infrastructure/mcp_server.py:77-88 | the agent's tasks in pending, in_progress and review (never completed), each once, priority non-increasing |
| Server.CreatedTaskIsListed | infrastructure/mcp_server.py:63-88 | a created task is on its assignee's task list |
| Server.FirstHolding | infrastructure/mcp_server.py:96-101 | the search stops at the first bucket of the list that holds the file |
| Server.Source | infrastructure/mcp_server.py:96-104 | an update finds the task in the first of pending, in_progress, review, completed holding it, or in none |
| Server.UpdateTaskStatus | infrastructure/mcp_server.py:90-121 | not found iff no searched bucket holds the id; not permitted iff the actor is neither the assignee nor "ceo"; a permitted update into a missing directory fails with that bucket (the `FileNotFoundError` of `write_text`); failures change nothing; a real move relocates the restamped record; a same-bucket update deletes it; one "info" notice for completed or blocked |
| Server.UpdateKeepsIdsUnique | infrastructure/mcp_server.py:111-117 | a successful update into a different bucket keeps ids unique across buckets |
| Server.SendMessage | infrastructure/mcp_server.py:125-134 | the message is stored at `<to>_<timestamp>`, and copied to `approval_<timestamp>` iff it needs approval |
| Server.GetMessages | infrastructure/mcp_server.py:143-154 | returns every message whose key starts with `<agent>_`, oldest first, deletes exactly those, and leaves approval copies alone |
| Server.SentMessageIsReceived | infrastructure/mcp_server.py:127-148 | a sent message matches its recipient's receive pattern |
| Server.ReceiveMatchesLongerNames | infrastructure/mcp_server.py:148 | receiving for "pm" also takes the messages of "pm_claude" |
| Server.SecondReceiveIsEmpty | infrastructure/mcp_server.py:143-154 | a second receive with no send in between returns nothing |
| Server.SaveProductSpec | infrastructure/mcp_server.py:158-162 | the spec is stored under the product, stamped with `updated_at` |
| Server.GetProductSpec | infrastructure/mcp_server.py:171-176 | a stored spec is returned and a missing one gives null |
| Server.SpecRoundTrip | infrastructure/mcp_server.py:158-176 | reading after a save returns the saved spec with its stamp |
| Server.SpecSavesAreIsolated | infrastructure/mcp_server.py:158-176 | saving one product's spec leaves every other product's spec as it was |
| Server.SpecLastWriteWins | infrastructure/mcp_server.py:158-162 | of two saves of the same product, the second is kept |
| Server.UpdateAgentStatus | infrastructure/mcp_server.py:180-185 | the agent's record is replaced, stamped with the time, and other agents' records are kept |
| Server.GetTeamStatus | infrastructure/mcp_server.py:187-197 | one entry per status file, keyed by its stem and holding its record; no status directory gives an empty view |
| Server.TeamStatusShowsLatest | infrastructure/mcp_server.py:180-197 | the team view shows an agent's latest record |
| Server.GenerateDailyReport | infrastructure/mcp_server.py:199-235 | the report lists completed tasks updated today, all in-progress tasks and pending tasks of priority at least 4, each once and nothing else; blocked is empty; every approval-inbox item is listed; the report is stored at `daily_<date>` |
| Server.SameDayReportOverwrites | infrastructure/mcp_server.py:199-235 | two digests on the same day leave one report for that day, the second, and every other report as it was; the first digest changes nothing a digest reads, so the second is a digest of the original workspace too |
| Server.NotifyCeo | infrastructure/mcp_server.py:239-249 | exactly one notification is added, under the clock's stamp, with the given priority |
| Dashboard.AgentKind | ceo-dashboard.py:168 | a task's type is the agent name up to its first underscore |
| Dashboard.TaskTitle | ceo-dashboard.py:169 | the title is the text before the first colon, or the first 50 characters when there is no colon |
| Dashboard.CeoTask | ceo-dashboard.py:164-177 | the record is pending, created by "ceo", assigned to the agent, with equal creation and update times |
| Dashboard.AssignWithPriority | ceo-dashboard.py:164-181 | the task is written into pending (its directory created if needed), and no other bucket changes |
| Dashboard.AssignTask | ceo-dashboard.py:159-161 | an assignment adds the dashboard's task record of priority 3 to pending (creating the bucket); every other pending record, every other bucket and the rest of the workspace are unchanged |
| Dashboard.ApproveProposal | ceo-dashboard.py:117-130 | the approval is recorded and pm_claude gets the dashboard's priority-5 "Start development of" task; other pending records, other buckets and every other part of the workspace are unchanged |
| Dashboard.RejectProposal | ceo-dashboard.py:132-142 | the rejection is recorded and no task is created |
| Dashboard.RequestModification | ceo-dashboard.py:144-157 | the request is recorded and pm_claude gets the dashboard's priority-4 rework task; other pending records, other buckets and every other part of the workspace are unchanged |
| Dashboard.ModificationTitle | ceo-dashboard.py:157 | every rework task is titled "Modify proposal", whatever the feedback |
| Dashboard.ProposalChoice | ceo-dashboard.py:69-84 | proposal n-1 is chosen iff the answer is all digits, not "0", and n is between 1 and the number of proposals |
| Dashboard.ProposalChoiceOfListedNumber | ceo-dashboard.py:73-84 | typing the number printed beside a proposal opens that proposal |
| Dashboard.ProposalChoiceLeadingZeros | ceo-dashboard.py:80-82 | "00" chooses nothing and "01" chooses the first proposal |
| Dashboard.CeoMessage | ceo-dashboard.py:197-204 | the message is from "ceo" to the agent, its subject is the first 50 characters, and it needs no approval |
| Dashboard.SendMessage | ceo-dashboard.py:195-207 | the message is stored at `<agent>_<stamp>` and nothing else changes |
| Dashboard.MessageKeyInjective | ceo-dashboard.py:206 | messages to different agents at the same instant go to different files |
| Dashboard.Broadcast | ceo-dashboard.py:216-218 | one message per listed agent, and no other message changes |
| Dashboard.EmergencyMeeting | ceo-dashboard.py:212-218 | each of the five roster agents gets the meeting text, and nothing else is written |
| Dashboard.MeetingKeysDistinct | ceo-dashboard.py:215-218 | the five announcements go to five different files |
| Dashboard.ShowStatus | ceo-dashboard.py:26-59 | one line per status record, with its current task or "Idle"; the pending, in-progress and completed counts are the bucket sizes; at most three inbox subjects |
| Dashboard.OmittedSortEarlier | ceo-dashboard.py:189 | a report left off the view sorts no later than any report shown |
| Dashboard.TopLines | ceo-dashboard.py:189-193 | the first n reports of a descending listing, distinct, each with its date |
| Dashboard.ViewReports | ceo-dashboard.py:183-193 | at most five reports, latest name first, distinct, and none left out that sorts after one shown |
| Dashboard.ReportViewDetermined | ceo-dashboard.py:183-193 | report names are distinct, so any two views of one workspace are the same lines in the same order, whatever the directory order |
| Agent.GetPendingTasks | agents/agent_simulator.py:62-73 | exactly the agent's pending tasks, each once, priority non-increasing |
| Agent.AssignedPendingLocs | agents/agent_simulator.py:68-71 | a pending file is on the agent's list iff its record is assigned to `<type>_claude` |
| Agent.EmptyListNoWork | agents/agent_simulator.py:41-43 | an empty list means no pending task is assigned to the agent |
| Agent.HeadIsWaiting | agents/agent_simulator.py:44 | the task taken is one of the agent's pending tasks |
| Agent.HeadOutranks | agents/agent_simulator.py:44 | no pending task of the agent has a higher priority than the task taken |
| Agent.NextTask | agents/agent_simulator.py:41-45 | no task iff nothing is pending for the agent; otherwise a pending task of the agent with the top priority |
| Agent.MoveTask | agents/agent_simulator.py:95-107 | no-op when the source file is missing; otherwise the restamped record moves (the target directory is created); from == to deletes it |
| Agent.MoveKeepsIdsUnique | agents/agent_simulator.py:95-107 | a move between two different buckets keeps every id in one bucket |
| Agent.StatusRecord | agents/agent_simulator.py:111-115 | the record holds the agent name, the text and the time, and nothing else |
| Agent.UpdateStatus | agents/agent_simulator.py:109-120 | only the record keyed `<type>_claude` is replaced |
| Agent.CreateTaskReport | agents/agent_simulator.py:122-135 | one report keyed `<id>_report`, completed by `<type>_claude` |
| Agent.WorkTask | agents/agent_simulator.py:75-107 | a pending task ends in completed, restamped, and leaves pending and in_progress; every other record of those three buckets and every other bucket is kept; in_progress and completed exist afterwards; a task only in in_progress is moved from there; any other task is left alone |
| Agent.ProcessTask | agents/agent_simulator.py:75-93 | the task tree changes exactly as `WorkTask` says; the last status says "Task completed"; the report is filed; nothing else in the workspace changes |
| Agent.ProcessKeepsIdsUnique | agents/agent_simulator.py:75-93 | working a task keeps every id in one bucket |
| Agent.IdleActivity | agents/agent_simulator.py:46-51 | an agent reports "Idle" exactly when its type is none of pm, hardware, backend, frontend and qa |
| Agent.IdleActivitiesDistinct | agents/agent_simulator.py:139-182 | the five known types report five different idle activities |
| Agent.Step | agents/agent_simulator.py:38-53 | with no pending work the agent reports its idle activity; otherwise it processes a pending task of top priority |
| Findings.SameStatusLosesTask | infrastructure/mcp_server.py:115-117 | as written: updating a pending task to "pending" succeeds and the task is in no bucket afterwards |
| Findings.ReviewAndBlockedUnreachable | infrastructure/mcp_server.py:41-44 | as written: from the server's initial directories a new task cannot enter review or blocked, and no blocked notice is sent |
| Findings.DeleteThenWrite | infrastructure/mcp_server.py:114-117 | corrected: deleting first and then writing (creating the directory) always leaves the record in the target; a same-bucket move rewrites it in place |
| Findings.UpdateTaskStatusFixed | infrastructure/mcp_server.py:90-121 | corrected: a permitted update always succeeds and leaves the restamped task in the new bucket; a same-bucket update rewrites it in place |
| Findings.FixedAgreesOnRealMoves | infrastructure/mcp_server.py:111-117 | on a move between two different existing buckets the corrected update equals the server's |
| Findings.FixedKeepsIdsUnique | infrastructure/mcp_server.py:111-117 | corrected: every successful update keeps ids unique and puts the id in the new bucket only |
| Findings.FixedBlockedReachable | infrastructure/mcp_server.py:120-121 | corrected: a new task can be blocked, and the supervisor gets exactly one notice |
| Findings.EscalationNotInDashboardInbox | infrastructure/mcp_server.py:130-134 | as written: the approval copy goes to the server's inbox, and the dashboard's inbox is unchanged |
| Findings.EscalationsNeverListed | ceo-dashboard.py:49-57 | as written: right after an escalation, the status view still lists no approval |
| Findings.PendingApprovalsFixed | ceo-dashboard.py:47-57 | corrected: the view lists the subjects of at most three items of the inbox the server writes |
| Findings.FewEscalationsAllListed | ceo-dashboard.py:51-55 | corrected: while at most three escalations wait, each is listed |
| Findings.FirstEscalationListed | infrastructure/mcp_server.py:130-134 | corrected: the first escalation is the one approval the view lists |
| Scenarios.AssignedTaskReachesAgent | ceo-dashboard.py:164-181 | a task the dashboard assigns is on the agent's pending list |
| Scenarios.AssignedTaskListedByServer | infrastructure/mcp_server.py:77-88 | the server lists a dashboard-assigned task for its agent |
| Scenarios.AgentStatusShown | agents/agent_simulator.py:109-120 | the dashboard shows what the agent last reported |
| Scenarios.FinishedTaskInDailyDigest | infrastructure/mcp_server.py:214-219 | a task the agent completes counts as completed that day in the daily report |
| Scenarios.CreateStartComplete | infrastructure/mcp_server.py:63-121 | create, start and complete leaves the task in completed only, restamped, with one notice |
| Scenarios.LifecycleListing | infrastructure/mcp_server.py:77-88 | the task is on the assignee's list while in progress, and on no list once completed |
| Scenarios.InProgressListed | infrastructure/mcp_server.py:81-86 | an in-progress task is listed for its assignee |
| Scenarios.CompletedNotListed | infrastructure/mcp_server.py:81 | a task held only in completed is not listed |
| Scenarios.DashboardMessageReceived | ceo-dashboard.py:206 | a dashboard message matches the recipient's receive pattern on the server |
| Scenarios.EscalationOutlivesReceive | infrastructure/mcp_server.py:143-154 | the recipient's receive consumes the message and keeps the supervisor's copy |

## Left out

- File system, paths and JSON encoding: records are datatypes, and directories are maps. A document is a map from text to text, so JSON values other than strings are not distinguished. A status or task id is taken as one directory or file name: empty names, `.`, `..` and names containing `/`, which pathlib resolves to other places (`update_task_status(id, "", actor)` writes `tasks/<id>.json`), are not modelled.
- Redis publish/subscribe (`connect_redis` and every `publish`): a network client, with no effect on the workspace.
- `asyncio`, the server's hourly loop, and the agents' `time.sleep` polling.
- The clock: each operation reads one `Clock` (or two, for processing a task). The source calls `datetime.now()` several times per operation. One consequence: `Dashboard.CeoTask` has equal creation and update times and an id stamped at the same instant, where the source reads the time separately for the id, `created_at` and `updated_at`.
- Randomness: `pm_behavior`'s 30% proposal branch, `create_product_proposal` and the random work time. The idle pm reports "Market research".
- `print`/`input` text, the dashboard's `main` argument dispatch, and `.lower()` on the typed decision. The decision comes in as a choice of operation.
- `_review_proposal`'s display of a proposal. The proposal list is an input to `ProposalChoice`, and the `pm-workspace/proposals` directory is not part of the store.
- Agent.GetPendingTasks: `task.get("priority", 0)` defaults a missing priority to 0, but every modelled record has a priority.
- Server.UpdateAgentStatus and Server.SaveProductSpec: the source also writes the timestamp into the caller's dictionary. Only the stored copy is modelled.
- Text.IsDigits: Python's `isdigit` also accepts non-ASCII digits. Only 0-9 are modelled.
- Server.Inbox: glob metacharacters in agent names (`*`, `?`, `[`) are not modelled. Names are matched as plain prefixes.
- Concurrency: the write-then-unlink move is not atomic for a concurrent reader. The model sees each operation whole.
- Failures of the file system other than a missing task directory (permissions, a full disk, malformed JSON) are not modelled.
- `projects/worktree-hardware/firmware/main.c` is not part of this model. It is an empty firmware stub.

## Findings

| source | as written | input that shows it | evidently intended | confidence | as-written member | corrected member |
|---|---|---|---|---|---|---|
| infrastructure/mcp_server.py:115-117 | the update writes `tasks/<new_status>/<id>.json`, then unlinks the file it found; `move_task` in agents/agent_simulator.py:106-107 does the same | a pending task assigned to "qa"; `update_task_status(id, "pending", "qa")` | a same-bucket update keeps the task, restamped | high, not executed | Findings.SameStatusLosesTask | Findings.UpdateTaskStatusFixed |
| infrastructure/mcp_server.py:41-44 | the server creates pending, in_progress and completed only, and the update writes into `tasks/<new_status>` without creating it | a freshly created task; `update_task_status(id, "blocked", assignee)` raises FileNotFoundError | review and blocked are reachable, and blocking notifies the supervisor | medium, not executed | Findings.ReviewAndBlockedUnreachable | Findings.UpdateTaskStatusFixed |
| infrastructure/mcp_server.py:132 | escalations are copied to `shared-workspace/ceo-office/inbox`, while the dashboard lists `<base>/ceo-office/inbox` (ceo-dashboard.py:18, 49) | `send_message` of a message with `requires_ceo_approval`, then `show_status` | the dashboard lists pending escalations | medium, not executed | Findings.EscalationsNeverListed | Findings.PendingApprovalsFixed |

Off the first two defects the corrected update equals the server's (`Findings.FixedAgreesOnRealMoves`). So the scenarios proved on the server's update, which use only such moves, hold for the corrected update as well.

=== FILE: agent.dfy ===
/**
  A simulated worker agent (AgentSimulator): it polls the pending bucket for tasks
  assigned to it, takes the highest-priority one through in_progress to completed,
  keeps its status record current and files a per-task report. The agent's type
  ("backend", ...) names it "<type>_claude". Sleeping and the random work time are
  left out; the two clock readings of a task's processing are parameters.
*/
module Agent {
  import opened Wrappers
  import opened Text
  import opened Listing
  import opened Workspace

  function AgentName(agentType: string): string {
    agentType + "_claude"
  }

  /** Task `id` waits in the pending bucket for `agent`. */
  predicate AssignedPending(tasks: TaskTree, agent: string, id: string) {
    Holds(tasks, Pending, id) && tasks[Pending][id].assignedTo == agent
  }

  /** The pending tasks assigned to this agent, highest priority first. */
  method GetPendingTasks(s: Store, agentType: string) returns (r: seq<Task>)
    ensures Enumerates(r, Flatten(s.tasks, [Pending]), AssignedLocs(Flatten(s.tasks, [Pending]), AgentName(agentType)))
    ensures ByPriority(r)
  {
    r := ListAssigned(s.tasks, [Pending], AgentName(agentType));
  }

  /** The pending locations assigned to `agent` are those of its waiting tasks. */
  lemma AssignedPendingLocs(tasks: TaskTree, agent: string, id: string)
    ensures AssignedPending(tasks, agent, id) <==> Loc(Pending, id) in AssignedLocs(Flatten(tasks, [Pending]), agent)
  {

  }

  /** A location of the pending listing is a pending file. */
  lemma PendingLoc(tasks: TaskTree, l: Loc)
    requires l in Flatten(tasks, [Pending])
    ensures l.bucket == Pending && Holds(tasks, Pending, l.id)
    ensures Flatten(tasks, [Pending])[l] == tasks[Pending][l.id]
  {

  }

  /** An empty pending list means nothing pending is assigned to the agent. */
  lemma EmptyListNoWork(tasks: TaskTree, agent: string, r: seq<Task>, id: string)
    requires Enumerates(r, Flatten(tasks, [Pending]), AssignedLocs(Flatten(tasks, [Pending]), agent))
    requires |r| == 0
    ensures !AssignedPending(tasks, agent, id)
  {
    AssignedPendingLocs(tasks, agent, id);
    if AssignedPending(tasks, agent, id) {
      EnumerationCovers(r, Flatten(tasks, [Pending]), AssignedLocs(Flatten(tasks, [Pending]), agent), Loc(Pending, id));
    }
  }

  /** The head of the pending list is one of the agent's waiting tasks. */
  lemma HeadIsWaiting(tasks: TaskTree, agent: string, r: seq<Task>)
    requires Enumerates(r, Flatten(tasks, [Pending]), AssignedLocs(Flatten(tasks, [Pending]), agent))
    requires |r| > 0
    ensures exists id :: AssignedPending(tasks, agent, id) && tasks[Pending][id] == r[0]
  {
    var m := Flatten(tasks, [Pending]);
    EnumeratedRecord(r, m, AssignedLocs(m, agent), 0);
    var l :| l in AssignedLocs(m, agent) && l in m && m[l] == r[0];
    PendingLoc(tasks, l);
    assert AssignedPending(tasks, agent, l.id) && tasks[Pending][l.id] == r[0];
  }

  /** No waiting task of the agent outranks the head of its pending list. */
  lemma HeadOutranks(tasks: TaskTree, agent: string, r: seq<Task>, id: string)
    requires Enumerates(r, Flatten(tasks, [Pending]), AssignedLocs(Flatten(tasks, [Pending]), agent))
    requires ByPriority(r) && |r| > 0
    requires AssignedPending(tasks, agent, id)
    ensures tasks[Pending][id].priority <= r[0].priority
  {
    var m := Flatten(tasks, [Pending]);
    AssignedPendingLocs(tasks, agent, id);
    EnumerationCovers(r, m, AssignedLocs(m, agent), Loc(Pending, id));
    var j :| 0 <= j < |r| && r[j] == m[Loc(Pending, id)];
    assert j == 0 || r[0].priority >= r[j].priority;
  }

  /**
    The task the agent picks up next: the head of its pending list. There is none
    exactly when nothing pending is assigned to it; otherwise it is a pending record
    of this agent whose priority no other such record exceeds.
  */
  method NextTask(s: Store, agentType: string) returns (r: Option<Task>)
    ensures r.None? <==> forall id :: !AssignedPending(s.tasks, AgentName(agentType), id)
    ensures r.Some? ==> exists id :: AssignedPending(s.tasks, AgentName(agentType), id) && s.tasks[Pending][id] == r.value
    ensures r.Some? ==> forall id :: AssignedPending(s.tasks, AgentName(agentType), id) ==>
      s.tasks[Pending][id].priority <= r.value.priority
  {
    var tasks := GetPendingTasks(s, agentType);
    if |tasks| == 0 {
      r := None;
      forall id
        ensures !AssignedPending(s.tasks, AgentName(agentType), id)
      {
        EmptyListNoWork(s.tasks, AgentName(agentType), tasks, id);
      }
    } else {
      r := Some(tasks[0]);
      HeadIsWaiting(s.tasks, AgentName(agentType), tasks);
      forall id | AssignedPending(s.tasks, AgentName(agentType), id)
        ensures s.tasks[Pending][id].priority <= tasks[0].priority
      {
        HeadOutranks(s.tasks, AgentName(agentType), tasks, id);
      }
    }
  }

  /**
    Moves task `id` from bucket `from` to bucket `to` when the `from` file exists, creating
    the target directory; the record is restamped. When `from` and `to` are the same bucket
    the file is written and then deleted, so the task is lost.
  */
  function MoveTask(tasks: TaskTree, id: string, from: string, to: string, now: Clock): (r: TaskTree)
    ensures !Holds(tasks, from, id) ==> r == tasks
    ensures Holds(tasks, from, id) && from != to ==> Moved(tasks, r, id, from, to, Restamped(tasks[from][id], to, now))
    ensures Holds(tasks, from, id) && from == to ==> r == tasks[from := tasks[from] - {id}]
  {
    if !Holds(tasks, from, id) then tasks
    else WriteThenDelete(tasks, id, from, to, Restamped(tasks[from][id], to, now))
  }

  /** A move between two different buckets keeps every task id in one bucket. */
  lemma MoveKeepsIdsUnique(tasks: TaskTree, id: string, from: string, to: string, now: Clock)
    requires UniqueIds(tasks) && from != to
    ensures UniqueIds(MoveTask(tasks, id, from, to, now))
  {
    if Holds(tasks, from, id) {
      MovedKeepsIdsUnique(tasks, MoveTask(tasks, id, from, to, now), id, from, to, Restamped(tasks[from][id], to, now));
    }
  }

  /** The agent's status record: its name, what it is doing, and when it said so. */
  function StatusRecord(agentType: string, text: string, now: Clock): (d: Document)
    ensures d.Keys == {"agent", "current_task", "timestamp"}
    ensures d["agent"] == AgentName(agentType) && d["current_task"] == text && d["timestamp"] == now.iso
  {
    map["agent" := AgentName(agentType), "current_task" := text, "timestamp" := now.iso]
  }

  /** Overwrites the agent's status file. */
  function UpdateStatus(s: Store, agentType: string, text: string, now: Clock): (t: Store)
    ensures Stored(s.statuses, t.statuses, AgentName(agentType), StatusRecord(agentType, text, now))
    ensures t == s.(statuses := t.statuses)
  {
    s.(statuses := s.statuses[AgentName(agentType) := StatusRecord(agentType, text, now)])
  }

  function ReportName(id: string): string {
    id + "_report"
  }

  function CompletionReport(agentType: string, task: Task, now: Clock): Report {
    TaskReport(task.id, task.title, AgentName(agentType), now.iso, "Successfully completed " + task.title)
  }

  /** Files the per-task report "<id>_report", replacing an earlier one for the same task. */
  function CreateTaskReport(s: Store, agentType: string, task: Task, now: Clock): (t: Store)
    ensures Stored(s.reports, t.reports, ReportName(task.id), CompletionReport(agentType, task, now))
    ensures t.reports[ReportName(task.id)].taskId == task.id && t.reports[ReportName(task.id)].completedBy == AgentName(agentType)
    ensures t == s.(reports := t.reports)
  {
    s.(reports := s.reports[ReportName(task.id) := CompletionReport(agentType, task, now)])
  }

  /**
    The two moves of one worked task: pending to in_progress when it starts, in_progress
    to completed when it finishes.
  */
  function WorkTask(tasks: TaskTree, id: string, started: Clock, finished: Clock): (r: TaskTree)
    // a task that waited in pending ends in completed, restamped, and nowhere else it passed through
    ensures Holds(tasks, Pending, id) ==>
      && Holds(r, Completed, id)
      && r[Completed][id] == tasks[Pending][id].(status := Completed, updatedAt := finished.iso)
      && !Holds(r, Pending, id)
      && !Holds(r, InProgress, id)
      && Bucket(r, Pending) == Bucket(tasks, Pending) - {id}
      && Bucket(r, InProgress) == Bucket(tasks, InProgress) - {id}
      && Bucket(r, Completed) == Bucket(tasks, Completed)[id := r[Completed][id]]
      && r.Keys == tasks.Keys + {InProgress, Completed}
      && (forall b :: b != Pending && b != InProgress && b != Completed ==> Bucket(r, b) == Bucket(tasks, b))
    // a task found only in in_progress is finished from there; a task in neither bucket is left alone
    ensures !Holds(tasks, Pending, id) && Holds(tasks, InProgress, id) ==>
      Moved(tasks, r, id, InProgress, Completed, Restamped(tasks[InProgress][id], Completed, finished))
    ensures !Holds(tasks, Pending, id) && !Holds(tasks, InProgress, id) ==> r == tasks
  {
    var midway := MoveTask(tasks, id, Pending, InProgress, started);
    MoveTask(midway, id, InProgress, Completed, finished)
  }

  /**
    Works one task: the two moves of `WorkTask`, with a status update after each move and
    a report at the end. The status and report writes touch no task.
  */
  function ProcessTask(s: Store, agentType: string, task: Task, started: Clock, finished: Clock): (t: Store)
    ensures t.tasks == WorkTask(s.tasks, task.id, started, finished)
    ensures Holds(s.tasks, Pending, task.id) ==>
      && Holds(t.tasks, Completed, task.id)
      && t.tasks[Completed][task.id] == s.tasks[Pending][task.id].(status := Completed, updatedAt := finished.iso)
      && Bucket(t.tasks, InProgress) == Bucket(s.tasks, InProgress) - {task.id}
      && Bucket(t.tasks, Pending) == Bucket(s.tasks, Pending) - {task.id}
    ensures Stored(s.statuses, t.statuses, AgentName(agentType), StatusRecord(agentType, "Task completed", finished))
    ensures Stored(s.reports, t.reports, ReportName(task.id), CompletionReport(agentType, task, finished))
    ensures t == s.(tasks := t.tasks, statuses := t.statuses, reports := t.reports)
  {
    var s1 := s.(tasks := MoveTask(s.tasks, task.id, Pending, InProgress, started));
    var s2 := UpdateStatus(s1, agentType, "Working on: " + task.title, started);
    var s3 := s2.(tasks := MoveTask(s2.tasks, task.id, InProgress, Completed, finished));
    var s4 := UpdateStatus(s3, agentType, "Task completed", finished);
    CreateTaskReport(s4, agentType, task, finished)
  }

  /** Working a task keeps every task id in one bucket. */
  lemma ProcessKeepsIdsUnique(s: Store, agentType: string, task: Task, started: Clock, finished: Clock)
    requires UniqueIds(s.tasks)
    ensures UniqueIds(ProcessTask(s, agentType, task, started, finished).tasks)
  {
    var midway := MoveTask(s.tasks, task.id, Pending, InProgress, started);
    MoveKeepsIdsUnique(s.tasks, task.id, Pending, InProgress, started);
    MoveKeepsIdsUnique(midway, task.id, InProgress, Completed, finished);
    assert ProcessTask(s, agentType, task, started, finished).tasks == MoveTask(midway, task.id, InProgress, Completed, finished);
  }

  /** The agent types that have an idle behaviour of their own. */
  const AgentTypes: set<string> := {"pm", "hardware", "backend", "frontend", "qa"}

  /**
    What an agent of each type reports while it has nothing to do: its own activity for
    the five known types, "Idle" for any other.
  */
  function IdleActivity(agentType: string): (r: string)
    ensures r == "Idle" <==> agentType !in AgentTypes
  {
    if agentType == "pm" then "Market research"
    else if agentType == "hardware" then "PCB design optimization"
    else if agentType == "backend" then "API development"
    else if agentType == "frontend" then "UI/UX improvements"
    else if agentType == "qa" then "Running tests"
    else "Idle"
  }

  /** Two different known types never report the same idle activity. */
  lemma IdleActivitiesDistinct(a: string, b: string)
    requires a in AgentTypes && b in AgentTypes && a != b
    ensures IdleActivity(a) != IdleActivity(b)
  {
  }

  /**
    One turn of the agent's loop: work the top pending task when there is one, otherwise
    report the idle activity.
  */
  method Step(s: Store, agentType: string, started: Clock, finished: Clock) returns (t: Store)
    ensures (forall id :: !AssignedPending(s.tasks, AgentName(agentType), id)) ==>
      t == UpdateStatus(s, agentType, IdleActivity(agentType), started)
    ensures (exists id :: AssignedPending(s.tasks, AgentName(agentType), id)) ==>
      exists id ::
        && AssignedPending(s.tasks, AgentName(agentType), id)
        && (forall other :: AssignedPending(s.tasks, AgentName(agentType), other) ==>
              s.tasks[Pending][other].priority <= s.tasks[Pending][id].priority)
        && t == ProcessTask(s, agentType, s.tasks[Pending][id], started, finished)
  {
    var next := NextTask(s, agentType);
    match next
    case None =>
      t := UpdateStatus(s, agentType, IdleActivity(agentType), started);
    case Some(task) =>
      t := ProcessTask(s, agentType, task, started, finished);
  }
}

=== FILE: dashboard.dfy ===
/**
  The supervisor's dashboard (CEODashboard): how it builds task and message
  records, the decisions on product proposals, the emergency broadcast, and the
  selection rules of its status, proposal and report views. Printing and
  prompting are left to the caller: what the user types is a parameter and what
  would be printed is returned.
*/
module Dashboard {
  import opened Wrappers
  import opened Text
  import opened Listing
  import opened Workspace

  const AssignPriority := 3
  const ApprovePriority := 5
  const ModifyPriority := 4

  /** Titles and subjects are cut to this many characters. */
  const CutLength := 50

  const ProductManager := "pm_claude"

  /** The agents an emergency meeting is announced to. */
  const Roster: seq<string> := ["pm_claude", "hardware_claude", "backend_claude", "frontend_claude", "qa_claude"]

  const ApprovalsShown := 3
  const ReportsShown := 5

  // ===== Tasks =====

  /** The category of an agent: its name up to the first underscore ("backend" for "backend_claude"). */
  function AgentKind(agent: string): (r: string)
    ensures StartsWith(agent, r) && '_' !in r
    ensures '_' in agent ==> |r| < |agent| && agent[|r|] == '_'
    ensures '_' !in agent ==> r == agent
  {
    Before(agent, '_')
  }

  /**
    A task's title: the text before the first colon when the description has one,
    otherwise the description's first fifty characters.
  */
  function TaskTitle(description: string): (r: string)
    ensures StartsWith(description, r) && ':' !in r
    ensures ':' in description ==> |r| < |description| && description[|r|] == ':'
    ensures ':' !in description ==> |r| == Min(CutLength, |description|)
  {
    if ':' in description then Before(description, ':') else Take(description, CutLength)
  }

  function TaskId(now: Clock): string {
    "task_" + now.stamp
  }

  /** The record the dashboard writes for a task it hands to `agent`. */
  function CeoTask(agent: string, description: string, priority: int, now: Clock): (t: Task)
    ensures t.id == TaskId(now) && t.assignedTo == agent && t.priority == priority
    ensures t.status == Pending && t.createdBy == Ceo
    ensures t.createdAt == now.iso && t.updatedAt == t.createdAt
    ensures t.kind == AgentKind(agent) && t.title == TaskTitle(description) && t.description == description
  {
    Task(TaskId(now), AgentKind(agent), TaskTitle(description), description, agent, Ceo, Pending, priority, now.iso, now.iso)
  }

  /**
    Writes a new task for `agent` into the pending bucket, creating the bucket's
    directory if needed; a task already stored under the same id is replaced.
  */
  function AssignWithPriority(s: Store, agent: string, description: string, priority: int, now: Clock): (t: Store)
    ensures Holds(t.tasks, Pending, TaskId(now))
    ensures t.tasks[Pending][TaskId(now)] == CeoTask(agent, description, priority, now)
    ensures Bucket(t.tasks, Pending) == Bucket(s.tasks, Pending)[TaskId(now) := CeoTask(agent, description, priority, now)]
    ensures t.tasks.Keys == s.tasks.Keys + {Pending}
    ensures forall b :: b != Pending ==> Bucket(t.tasks, b) == Bucket(s.tasks, b)
    ensures t == s.(tasks := t.tasks)
  {
    var task := CeoTask(agent, description, priority, now);
    s.(tasks := s.tasks[Pending := Bucket(s.tasks, Pending)[task.id := task]])
  }

  /** The dashboard's assign command: a pending task of priority 3. */
  function AssignTask(s: Store, agent: string, description: string, now: Clock): (t: Store)
    ensures Holds(t.tasks, Pending, TaskId(now))
    ensures t.tasks[Pending][TaskId(now)].priority == AssignPriority
    ensures t.tasks[Pending][TaskId(now)].assignedTo == agent
    ensures t.tasks[Pending][TaskId(now)].title == TaskTitle(description)
    ensures t.tasks[Pending][TaskId(now)] == CeoTask(agent, description, AssignPriority, now)
    ensures Bucket(t.tasks, Pending) == Bucket(s.tasks, Pending)[TaskId(now) := CeoTask(agent, description, AssignPriority, now)]
    ensures t.tasks.Keys == s.tasks.Keys + {Pending}
    ensures forall b :: b != Pending ==> Bucket(t.tasks, b) == Bucket(s.tasks, b)
    ensures t == s.(tasks := t.tasks)
  {
    AssignWithPriority(s, agent, description, AssignPriority, now)
  }

  // ===== Proposal decisions =====

  /** The proposal's "product_name", or null. */
  function ProductName(proposal: Document): Option<string> {
    if "product_name" in proposal then Some(proposal["product_name"]) else None
  }

  /** The product name as an f-string renders it: Python prints a missing name as "None". */
  function ProductLabel(proposal: Document): string {
    ProductName(proposal).GetOr("None")
  }

  /** The next step recorded on an approval ("start development"). */
  const NextSteps := "개발 착수"

  function ApprovalRecordKey(proposal: Document, now: Clock): string {
    ProductLabel(proposal) + "_" + now.stamp
  }

  /** The description of the development task an approval hands out. */
  function DevelopmentRequest(proposal: Document): string {
    "Start development of " + ProductLabel(proposal)
  }

  /** Records the approval and hands the product manager a top-priority development task. */
  function ApproveProposal(s: Store, proposal: Document, now: Clock): (t: Store)
    ensures Stored(s.ceoApprovals, t.ceoApprovals, ApprovalRecordKey(proposal, now), Approved(ProductName(proposal), now.iso, NextSteps))
    ensures Holds(t.tasks, Pending, TaskId(now))
    ensures t.tasks[Pending][TaskId(now)] == CeoTask(ProductManager, DevelopmentRequest(proposal), ApprovePriority, now)
    ensures t.tasks[Pending][TaskId(now)].assignedTo == ProductManager
    ensures t.tasks[Pending][TaskId(now)].priority == ApprovePriority
    ensures t.tasks[Pending][TaskId(now)].description == DevelopmentRequest(proposal)
    ensures Bucket(t.tasks, Pending) == Bucket(s.tasks, Pending)[TaskId(now) := CeoTask(ProductManager, DevelopmentRequest(proposal), ApprovePriority, now)]
    ensures t.tasks.Keys == s.tasks.Keys + {Pending}
    ensures forall b :: b != Pending ==> Bucket(t.tasks, b) == Bucket(s.tasks, b)
    ensures t == s.(tasks := t.tasks, ceoApprovals := t.ceoApprovals)
  {
    // the approval file and the task file are independent writes; the task is built first here
    var withTask := AssignWithPriority(s, ProductManager, DevelopmentRequest(proposal), ApprovePriority, now);
    withTask.(ceoApprovals := s.ceoApprovals[ApprovalRecordKey(proposal, now) :=
                                             Approved(ProductName(proposal), now.iso, NextSteps)])
  }

  /** Records the rejection; no task is created. */
  function RejectProposal(s: Store, proposal: Document, reason: string, now: Clock): (t: Store)
    ensures t.tasks == s.tasks
    ensures Stored(s.ceoDecisions, t.ceoDecisions, DecisionKey("reject", now), Rejected(ProductName(proposal), now.iso, reason))
    ensures t == s.(ceoDecisions := t.ceoDecisions)
  {
    s.(ceoDecisions := s.ceoDecisions[DecisionKey("reject", now) := Rejected(ProductName(proposal), now.iso, reason)])
  }

  /** The decision file for a rejection or a modification request: "<kind>_<stamp>". */
  function DecisionKey(kind: string, now: Clock): string {
    kind + "_" + now.stamp
  }

  function ModificationRequest(feedback: string): string {
    "Modify proposal: " + feedback
  }

  /** Records the request and hands the product manager a priority-4 rework task. */
  function RequestModification(s: Store, proposal: Document, feedback: string, now: Clock): (t: Store)
    ensures Stored(s.ceoDecisions, t.ceoDecisions, DecisionKey("modify", now), ModificationRequested(ProductName(proposal), now.iso, feedback))
    ensures Holds(t.tasks, Pending, TaskId(now))
    ensures t.tasks[Pending][TaskId(now)] == CeoTask(ProductManager, ModificationRequest(feedback), ModifyPriority, now)
    ensures t.tasks[Pending][TaskId(now)].assignedTo == ProductManager
    ensures t.tasks[Pending][TaskId(now)].priority == ModifyPriority
    ensures t.tasks[Pending][TaskId(now)].description == ModificationRequest(feedback)
    ensures Bucket(t.tasks, Pending) == Bucket(s.tasks, Pending)[TaskId(now) := CeoTask(ProductManager, ModificationRequest(feedback), ModifyPriority, now)]
    ensures t.tasks.Keys == s.tasks.Keys + {Pending}
    ensures forall b :: b != Pending ==> Bucket(t.tasks, b) == Bucket(s.tasks, b)
    ensures t == s.(tasks := t.tasks, ceoDecisions := t.ceoDecisions)
  {
    // the decision file and the task file are independent writes; the task is built first here
    var withTask := AssignWithPriority(s, ProductManager, ModificationRequest(feedback), ModifyPriority, now);
    withTask.(ceoDecisions := s.ceoDecisions[DecisionKey("modify", now) :=
                                             ModificationRequested(ProductName(proposal), now.iso, feedback)])
  }

  /** Every rework task is titled "Modify proposal", whatever the feedback says. */
  lemma ModificationTitle(s: Store, proposal: Document, feedback: string, now: Clock)
    ensures RequestModification(s, proposal, feedback, now).tasks[Pending][TaskId(now)].title == "Modify proposal"
  {
    ReworkTitle(feedback);
  }

  /** The title rule cuts a rework request at its first colon, right after "Modify proposal". */
  lemma ReworkTitle(feedback: string)
    ensures TaskTitle(ModificationRequest(feedback)) == "Modify proposal"
  {
    var d := ModificationRequest(feedback);
    var r := TaskTitle(d);
    assert d[15] == ':';
    assert d[..15] == "Modify proposal";
    assert forall i :: 0 <= i < 15 ==> d[i] != ':';
    assert forall i :: 0 <= i < |r| ==> r[i] == d[i];
    assert |r| <= 15;
    assert |r| >= 15;
    assert r == d[..15];
  }

  /**
    The proposal the user picked: answer `n` opens proposal `n`, counted from 1, when it is
    all digits, is not "0", and names an existing proposal; anything else picks nothing.
    With no proposals the dashboard returns before asking.
  */
  function ProposalChoice(answer: string, count: nat): (r: Option<nat>)
    ensures r.Some? <==> answer != "0" && IsDigits(answer) && 1 <= DigitsValue(answer) <= count
    ensures r.Some? ==> IsDigits(answer) && r.value == DigitsValue(answer) - 1 && r.value < count
  {
    if count == 0 then None
    else if answer != "0" && IsDigits(answer) then
      var idx := DigitsValue(answer) - 1;
      if 0 <= idx < count then Some(idx) else None
    else None
  }

  /** Typing the number printed next to a proposal opens that proposal. */
  lemma ProposalChoiceOfListedNumber(i: nat, count: nat)
    requires i < count
    ensures ProposalChoice(Decimal(i + 1), count) == Some(i)
  {
    DecimalRoundTrip(i + 1);
  }

  /** "00" passes the "not 0" test but still picks nothing; "01" picks the first proposal. */
  lemma ProposalChoiceLeadingZeros(count: nat)
    requires count >= 1
    ensures ProposalChoice("00", count) == None
    ensures ProposalChoice("01", count) == Some(0)
  {
    assert DigitsValue("00") == 0 by {
      assert "00"[..1] == "0";
    }
    assert DigitsValue("01") == 1 by {
      assert "01"[..1] == "0";
    }
  }

  // ===== Messages =====

  /** The message the dashboard writes: from the supervisor, subject cut to fifty characters, no approval needed. */
  function CeoMessage(agent: string, text: string, now: Clock): (m: Message)
    ensures m.fromAgent == Ceo && m.toAgent == agent && m.content == text
    ensures StartsWith(text, m.subject) && |m.subject| == Min(CutLength, |text|)
    ensures m.timestamp == now.iso && !m.requiresCeoApproval
  {
    Message(Ceo, agent, Take(text, CutLength), text, now.iso, false)
  }

  /** Writes the message straight into the shared message directory, keyed by the numeric stamp. */
  function SendMessage(s: Store, agent: string, text: string, now: Clock): (t: Store)
    ensures Stored(s.messages, t.messages, MessageKey(agent, now.stamp), CeoMessage(agent, text, now))
    ensures t == s.(messages := t.messages)
  {
    s.(messages := s.messages[MessageKey(agent, now.stamp) := CeoMessage(agent, text, now)])
  }

  function MessageKeys(agents: seq<string>, now: Clock): set<string> {
    set a | a in agents :: MessageKey(a, now.stamp)
  }

  /** Messages for different agents sent at the same instant go to different files. */
  lemma MessageKeyInjective(a: string, b: string, stamp: string)
    ensures MessageKey(a, stamp) == MessageKey(b, stamp) ==> a == b
  {
    var tail := "_" + stamp;
    assert MessageKey(a, stamp) == a + tail;
    assert MessageKey(b, stamp) == b + tail;
    if a + tail == b + tail {
      SameTailSameHead(a, b, tail);
    }
  }

  /** Sends the same text to each agent in turn: one message file per agent, nothing else written. */
  function Broadcast(messages: map<string, Message>, agents: seq<string>, text: string, now: Clock): (r: map<string, Message>)
    ensures r.Keys == messages.Keys + MessageKeys(agents, now)
    ensures forall a :: a in agents ==> r[MessageKey(a, now.stamp)] == CeoMessage(a, text, now)
    ensures forall k :: k in messages && k !in MessageKeys(agents, now) ==> r[k] == messages[k]
    decreases |agents|
  {
    if |agents| == 0 then messages
    else
      var a0 := agents[0];
      var k0 := MessageKey(a0, now.stamp);
      var first := messages[k0 := CeoMessage(a0, text, now)];
      var r := Broadcast(first, agents[1..], text, now);
      BroadcastStep(agents, now);
      assert a0 !in agents[1..] ==> k0 !in MessageKeys(agents[1..], now) by {
        forall a | a in agents[1..] && a != a0 {
          MessageKeyInjective(a, a0, now.stamp);
        }
      }
      r
  }

  lemma BroadcastStep(agents: seq<string>, now: Clock)
    requires |agents| > 0
    ensures MessageKeys(agents, now) == {MessageKey(agents[0], now.stamp)} + MessageKeys(agents[1..], now)
  {

  }

  function MeetingText(topic: string): string {
    "URGENT MEETING: " + topic + ". Please review and prepare your status."
  }

  /** Announces an emergency meeting to every agent of the roster. */
  function EmergencyMeeting(s: Store, topic: string, now: Clock): (t: Store)
    ensures t == s.(messages := t.messages)
    ensures t.messages.Keys == s.messages.Keys + MessageKeys(Roster, now)
    ensures forall a :: a in Roster ==> t.messages[MessageKey(a, now.stamp)] == CeoMessage(a, MeetingText(topic), now)
    ensures forall k :: k in s.messages && k !in MessageKeys(Roster, now) ==> t.messages[k] == s.messages[k]
  {
    s.(messages := Broadcast(s.messages, Roster, MeetingText(topic), now))
  }

  /** The five announcements go to five different files. */
  lemma MeetingKeysDistinct(now: Clock)
    ensures forall i, j :: 0 <= i < j < |Roster| ==> MessageKey(Roster[i], now.stamp) != MessageKey(Roster[j], now.stamp)
  {
    forall i, j | 0 <= i < j < |Roster|
      ensures MessageKey(Roster[i], now.stamp) != MessageKey(Roster[j], now.stamp)
    {
      MessageKeyInjective(Roster[i], Roster[j], now.stamp);
    }
  }

  // ===== Views =====

  datatype StatusLine = StatusLine(agent: string, currentTask: string)

  datatype Summary = Summary(
    team: seq<StatusLine>,
    pending: nat,
    inProgress: nat,
    completed: nat,
    approvals: seq<string>)

  function CurrentTask(status: Document): string {
    Get(status, "current_task", "Idle")
  }

  function SubjectOf(item: Document): string {
    Get(item, "subject", "Unknown")
  }

  /**
    `subjects` are the subjects of the first `n` items of some walk of `inbox`,
    one item per file.
  */
  ghost predicate FirstSubjects(subjects: seq<string>, inbox: map<string, Document>, n: nat) {
    exists es: seq<Entry<string, Document>> ::
      && Exact(es, inbox, inbox.Keys)
      && |subjects| == Min(n, |es|)
      && forall i :: 0 <= i < |subjects| ==> subjects[i] == SubjectOf(es[i].val)
  }

  /**
    The status view: every agent's current task ("Idle" when it reported none), the
    number of pending, in-progress and completed tasks, and the subjects of at most
    three items of the dashboard's own inbox.
  */
  method ShowStatus(s: Store) returns (sum: Summary)
    ensures |sum.team| == |s.statuses|
    ensures forall i :: 0 <= i < |sum.team| ==>
      sum.team[i].agent in s.statuses && sum.team[i].currentTask == CurrentTask(s.statuses[sum.team[i].agent])
    ensures forall i, j :: 0 <= i < j < |sum.team| ==> sum.team[i].agent != sum.team[j].agent
    ensures sum.pending == |Bucket(s.tasks, Pending)|
    ensures sum.inProgress == |Bucket(s.tasks, InProgress)|
    ensures sum.completed == |Bucket(s.tasks, Completed)|
    ensures FirstSubjects(sum.approvals, s.ceoInbox, ApprovalsShown)
  {
    var agents := Select(s.statuses, s.statuses.Keys);
    var team := seq(|agents|, i requires 0 <= i < |agents| => StatusLine(agents[i].key, CurrentTask(agents[i].val)));
    var inbox := Select(s.ceoInbox, s.ceoInbox.Keys);
    var n := Min(ApprovalsShown, |inbox|);
    var approvals := seq(n, i requires 0 <= i < n => SubjectOf(inbox[i].val));
    sum := Summary(team, |Bucket(s.tasks, Pending)|, |Bucket(s.tasks, InProgress)|, |Bucket(s.tasks, Completed)|, approvals);
  }

  datatype ReportLine = ReportLine(name: string, date: string)

  /** A report's file name; the view orders reports by it. */
  function FileName(stem: string): string {
    stem + ".json"
  }

  function NameOf(e: Entry<string, Report>): string {
    FileName(e.key)
  }

  /** The "date" field of a report; per-task reports have none. */
  function ReportDate(r: Report): string {
    match r
    case Daily(d) => d.date
    case TaskReport(_, _, _, _, _) => "N/A"
  }

  predicate Listed(lines: seq<ReportLine>, name: string) {
    exists i :: 0 <= i < |lines| && lines[i].name == name
  }

  /** Among the entries of a descending listing, a report not among the first `n` sorts no later than any of them. */
  lemma OmittedSortEarlier(sorted: seq<Entry<string, Report>>, m: map<string, Report>, n: nat, k: string)
    requires Exact(sorted, m, m.Keys) && SortedByText(sorted, NameOf, true) && n <= |sorted|
    requires k in m && forall i :: 0 <= i < n ==> sorted[i].key != k
    ensures forall i :: 0 <= i < n ==> Le(FileName(k), FileName(sorted[i].key))
  {

  }

  /**
    `lines` is a reports view of `s`: as many lines as reports, up to five; each line a
    stored report with its date; names distinct and descending; and no report left out
    whose file name sorts after one shown.
  */
  ghost predicate IsReportView(s: Store, lines: seq<ReportLine>) {
    && |lines| == Min(ReportsShown, |s.reports|)
    && (forall i :: 0 <= i < |lines| ==>
          lines[i].name in s.reports && lines[i].date == ReportDate(s.reports[lines[i].name]))
    && (forall i, j :: 0 <= i < j < |lines| ==>
          lines[i].name != lines[j].name && Le(FileName(lines[j].name), FileName(lines[i].name)))
    && (forall k :: k in s.reports && !Listed(lines, k) ==>
          forall i :: 0 <= i < |lines| ==> Le(FileName(k), FileName(lines[i].name)))
  }

  /** Different stems give different file names. */
  lemma FileNameInjective(a: string, b: string)
    requires FileName(a) == FileName(b)
    ensures a == b
  {
    assert |a| == |b|;
    assert a == FileName(a)[..|a|] && b == FileName(b)[..|b|];
  }

  /**
    Where two views first differ, the line the second shows sorts no later than the line
    the first shows there.
  */
  lemma NoLaterThanShown(s: Store, l1: seq<ReportLine>, l2: seq<ReportLine>, i: nat)
    requires IsReportView(s, l1) && IsReportView(s, l2) && i < |l1|
    requires forall j :: 0 <= j < i ==> l1[j] == l2[j]
    requires l1[i].name != l2[i].name
    ensures Le(FileName(l2[i].name), FileName(l1[i].name))
  {
    var b := l2[i].name;
    if Listed(l1, b) {
      var j :| 0 <= j < |l1| && l1[j].name == b;
      assert i < j;
    }
  }

  /** Two views that agree before line `i` agree everywhere. */
  lemma {:induction false} ViewsAgreeFrom(s: Store, l1: seq<ReportLine>, l2: seq<ReportLine>, i: nat)
    requires IsReportView(s, l1) && IsReportView(s, l2) && i <= |l1|
    requires forall j :: 0 <= j < i ==> l1[j] == l2[j]
    ensures l1 == l2
    decreases |l1| - i
  {
    if i < |l1| {
      if l1[i].name != l2[i].name {
        NoLaterThanShown(s, l1, l2, i);
        NoLaterThanShown(s, l2, l1, i);
        LeAntisymmetric(FileName(l1[i].name), FileName(l2[i].name));
        FileNameInjective(l1[i].name, l2[i].name);
      }
      ViewsAgreeFrom(s, l1, l2, i + 1);
    }
  }

  /**
    The reports view is determined by the workspace: report names are distinct, so
    however the directory is walked the same five lines come out in the same order.
  */
  lemma ReportViewDetermined(s: Store, l1: seq<ReportLine>, l2: seq<ReportLine>)
    requires IsReportView(s, l1) && IsReportView(s, l2)
    ensures l1 == l2
  {
    ViewsAgreeFrom(s, l1, l2, 0);
  }

  /**
    The reports view: the five reports whose file names sort last, latest name first
    (fewer when there are fewer reports), each with its date.
  */
  method ViewReports(s: Store) returns (lines: seq<ReportLine>)
    ensures IsReportView(s, lines)
  {
    var es := Select(s.reports, s.reports.Keys);
    var sorted := SortByText(es, NameOf, true);
    ExactPermutation(es, sorted, s.reports, s.reports.Keys);
    var n := Min(ReportsShown, |sorted|);
    lines := TopLines(sorted, s.reports, n);
  }

  /** The first `n` entries of a descending listing of the reports, as lines of the view. */
  function TopLines(sorted: seq<Entry<string, Report>>, m: map<string, Report>, n: nat): (lines: seq<ReportLine>)
    requires Exact(sorted, m, m.Keys) && SortedByText(sorted, NameOf, true) && n <= |sorted|
    ensures |lines| == n
    ensures forall i :: 0 <= i < n ==> lines[i].name == sorted[i].key && lines[i].date == ReportDate(m[sorted[i].key])
    ensures forall i, j :: 0 <= i < j < n ==>
      lines[i].name != lines[j].name && Le(FileName(lines[j].name), FileName(lines[i].name))
    ensures forall k :: k in m && !Listed(lines, k) ==>
      forall i :: 0 <= i < n ==> Le(FileName(k), FileName(lines[i].name))
  {
    var lines := seq(n, i requires 0 <= i < n => ReportLine(sorted[i].key, ReportDate(sorted[i].val)));
    assert forall i, j :: 0 <= i < j < n ==> InOrder(NameOf(sorted[i]), NameOf(sorted[j]), true);
    forall k | k in m && !Listed(lines, k)
      ensures forall i :: 0 <= i < n ==> Le(FileName(k), FileName(lines[i].name))
    {
      assert forall i :: 0 <= i < n ==> sorted[i].key != k by {
        forall i | 0 <= i < n
          ensures sorted[i].key != k
        {
          assert lines[i].name == sorted[i].key;
        }
      }
      OmittedSortEarlier(sorted, m, n, k);
    }
    lines
  }
}

=== FILE: findings.dfy ===
/**
  Three places where the coordination layer, as written, does not do what its own
  code evidently intends, each shown on the model of the code as written and
  paired with a corrected definition that has the intended property.

  1. A status update to the bucket the task is already in writes the file and then
     deletes it: the task is lost.
  2. The server never creates the review and blocked directories, so an update into
     either fails, and the supervisor's notice for blocked tasks never fires.
  3. The server files escalated messages in shared-workspace/ceo-office/inbox, but
     the dashboard lists <base>/ceo-office/inbox: escalations are never shown.
*/
module Findings {
  import opened Wrappers
  import opened Text
  import opened Listing
  import opened Workspace
  import Server
  import Dashboard

  // ===== 1 and 2: status updates =====

  /** A task `actor` may move is waiting in pending. */
  predicate MovablePending(s: Store, id: string, actor: string) {
    Holds(s.tasks, Pending, id) && (s.tasks[Pending][id].assignedTo == actor || actor == Ceo)
  }

  /** As written: moving a pending task to pending succeeds and the task is gone from every bucket. */
  lemma SameStatusLosesTask(s: Store, id: string, actor: string, now: Clock)
    requires UniqueIds(s.tasks) && MovablePending(s, id, actor)
    ensures Server.UpdateTaskStatus(s, id, Pending, actor, now).result.Success?
    ensures forall b :: !Holds(Server.UpdateTaskStatus(s, id, Pending, actor, now).store.tasks, b, id)
  {
    assert Server.SearchOrder[0] == Pending;
    assert Server.Source(s.tasks, id) == Some(Pending);
    var after := Server.UpdateTaskStatus(s, id, Pending, actor, now).store.tasks;
    forall b
      ensures !Holds(after, b, id)
    {
      if b != Pending {
        assert !Holds(s.tasks, b, id);
        assert Bucket(after, b) == Bucket(s.tasks, b);
      }
    }
  }

  /** As written: on the server's initial directories, a fresh task can be moved neither to review nor to blocked. */
  lemma ReviewAndBlockedUnreachable(task: Task, now: Clock)
    ensures var s := Server.CreateTask(Initial(), task).store;
            && Holds(s.tasks, Pending, task.id)
            && Server.UpdateTaskStatus(s, task.id, Review, task.assignedTo, now).result == Failure(NoSuchBucket(Review))
            && Server.UpdateTaskStatus(s, task.id, Blocked, task.assignedTo, now).result == Failure(NoSuchBucket(Blocked))
            && Server.UpdateTaskStatus(s, task.id, Blocked, Ceo, now).store.notifications == map[]
  {

  }

  /** The corrected file move: delete the old file, then write `rec` into `dst`, creating its directory. */
  function DeleteThenWrite(tasks: TaskTree, id: string, src: string, dst: string, rec: Task): (r: TaskTree)
    requires Holds(tasks, src, id)
    ensures Holds(r, dst, id) && r[dst][id] == rec
    ensures src != dst ==> Moved(tasks, r, id, src, dst, rec)
    ensures src == dst ==> r == tasks[src := tasks[src][id := rec]]
  {
    var removed := tasks[src := tasks[src] - {id}];
    var written := removed[dst := Bucket(removed, dst)[id := rec]];
    assert src == dst ==> Bucket(removed, src)[id := rec] == tasks[src][id := rec];
    written
  }

  /** A move determines the task tree it leaves behind. */
  lemma MovedDetermines(before: TaskTree, a: TaskTree, b: TaskTree, id: string, src: string, dst: string, rec: Task)
    requires Moved(before, a, id, src, dst, rec) && Moved(before, b, id, src, dst, rec)
    ensures a == b
  {
    forall k | k in a
      ensures a[k] == b[k]
    {
      assert a[k] == Bucket(a, k) && b[k] == Bucket(b, k);
    }
  }

  /**
    The corrected update: the target directory is created when missing, and the old
    file is deleted before the new one is written, so a same-bucket update rewrites
    the record in place. Lookup, permission and notification are as before.
  */
  function UpdateTaskStatusFixed(s: Store, id: string, newStatus: string, actor: string, now: Clock): (r: Reply<()>)
    ensures r.result.Failure? ==> r.store == s
    ensures r.result == Failure(NotFound(id)) <==> Server.Source(s.tasks, id).None?
    ensures Server.Source(s.tasks, id).Some? ==>
      var src := Server.Source(s.tasks, id).value;
      var t := s.tasks[src][id];
      && (r.result == Failure(NotPermitted(actor, t.assignedTo)) <==> t.assignedTo != actor && actor != Ceo)
      // a permitted update always succeeds and always leaves the task in the new bucket
      && (r.result.Success? <==> t.assignedTo == actor || actor == Ceo)
      && (r.result.Success? ==>
            Holds(r.store.tasks, newStatus, id) && r.store.tasks[newStatus][id] == Restamped(t, newStatus, now))
      && (r.result.Success? && newStatus != src ==>
            Moved(s.tasks, r.store.tasks, id, src, newStatus, Restamped(t, newStatus, now)))
      && (r.result.Success? && newStatus == src ==>
            r.store.tasks == s.tasks[src := s.tasks[src][id := Restamped(t, newStatus, now)]])
    ensures r.result.Success? ==> r.store == s.(tasks := r.store.tasks, notifications := r.store.notifications)
    ensures r.result.Success? ==>
      r.store.notifications ==
        if newStatus == Completed || newStatus == Blocked
        then s.notifications[now.stamp := Notification(now.iso, Server.InfoPriority, Server.StatusNotice(id, newStatus))]
        else s.notifications
  {
    match Server.Source(s.tasks, id)
    case None => Reply(s, Failure(NotFound(id)))
    case Some(src) =>
      var t := s.tasks[src][id];
      if t.assignedTo != actor && actor != Ceo then
        Reply(s, Failure(NotPermitted(actor, t.assignedTo)))
      else
        var moved := s.(tasks := DeleteThenWrite(s.tasks, id, src, newStatus, Restamped(t, newStatus, now)));
        var notified :=
          if newStatus == Completed || newStatus == Blocked
          then Server.NotifyCeo(moved, Server.StatusNotice(id, newStatus), Server.InfoPriority, now)
          else moved;
        Reply(notified, Success(()))
  }

  /** Off the two defects (a real move into an existing directory) the corrected update does what the server does. */
  lemma FixedAgreesOnRealMoves(s: Store, id: string, newStatus: string, actor: string, now: Clock)
    requires Server.Source(s.tasks, id).Some?
    requires newStatus != Server.Source(s.tasks, id).value && newStatus in s.tasks
    ensures UpdateTaskStatusFixed(s, id, newStatus, actor, now) == Server.UpdateTaskStatus(s, id, newStatus, actor, now)
  {
    var src := Server.Source(s.tasks, id).value;
    var t := s.tasks[src][id];
    if t.assignedTo == actor || actor == Ceo {
      var rec := Restamped(t, newStatus, now);
      MovedDetermines(s.tasks, DeleteThenWrite(s.tasks, id, src, newStatus, rec), WriteThenDelete(s.tasks, id, src, newStatus, rec), id, src, newStatus, rec);
    }
  }

  /** Corrected: a successful update keeps every id in one bucket, and this one in the new bucket only. */
  lemma FixedKeepsIdsUnique(s: Store, id: string, newStatus: string, actor: string, now: Clock)
    requires UniqueIds(s.tasks)
    requires UpdateTaskStatusFixed(s, id, newStatus, actor, now).result.Success?
    ensures UniqueIds(UpdateTaskStatusFixed(s, id, newStatus, actor, now).store.tasks)
    ensures forall b :: Holds(UpdateTaskStatusFixed(s, id, newStatus, actor, now).store.tasks, b, id) <==> b == newStatus
  {
    var src := Server.Source(s.tasks, id).value;
    var t := s.tasks[src][id];
    var after := UpdateTaskStatusFixed(s, id, newStatus, actor, now).store.tasks;
    if newStatus != src {
      MovedKeepsIdsUnique(s.tasks, after, id, src, newStatus, Restamped(t, newStatus, now));
    } else {
      assert after.Keys == s.tasks.Keys;
      forall b | Holds(after, b, id)
        ensures b == newStatus
      {
        if b != src {
          assert Holds(s.tasks, b, id);
        }
      }
      forall b1, b2, k | Holds(after, b1, k) && Holds(after, b2, k)
        ensures b1 == b2
      {
        assert Holds(s.tasks, b1, k) && Holds(s.tasks, b2, k);
      }
    }
  }

  /** Corrected: on the server's initial directories a fresh task can be blocked, and the supervisor hears of it. */
  lemma FixedBlockedReachable(task: Task, now: Clock)
    ensures var s := Server.CreateTask(Initial(), task).store;
            var r := UpdateTaskStatusFixed(s, task.id, Blocked, task.assignedTo, now);
            && r.result.Success?
            && Holds(r.store.tasks, Blocked, task.id)
            && !Holds(r.store.tasks, Pending, task.id)
            && r.store.notifications == map[now.stamp := Notification(now.iso, Server.InfoPriority, Server.StatusNotice(task.id, Blocked))]
  {

  }

  // ===== 3: escalations and the dashboard =====

  /** As written: an escalated message lands in the server's approval inbox and the dashboard's inbox is untouched. */
  lemma EscalationNotInDashboardInbox(s: Store, m: Message)
    requires m.requiresCeoApproval
    ensures Server.ApprovalKey(m.timestamp) in Server.SendMessage(s, m).approvalInbox
    ensures Server.SendMessage(s, m).ceoInbox == s.ceoInbox
  {
  }

  /** As written: with an empty dashboard inbox the status view lists no approval even right after an escalation. */
  lemma EscalationsNeverListed(s: Store, m: Message, subjects: seq<string>)
    requires s.ceoInbox == map[] && m.requiresCeoApproval
    requires Dashboard.FirstSubjects(subjects, Server.SendMessage(s, m).ceoInbox, Dashboard.ApprovalsShown)
    ensures subjects == []
  {

  }

  /** `subjects` are the subjects of the first `n` escalations of some walk of the approval inbox. */
  ghost predicate FirstApprovalSubjects(subjects: seq<string>, inbox: map<string, Message>, n: nat) {
    exists es: seq<Entry<string, Message>> ::
      && Exact(es, inbox, inbox.Keys)
      && |subjects| == Min(n, |es|)
      && forall i :: 0 <= i < |subjects| ==> subjects[i] == es[i].val.subject
  }

  /** Corrected: the status view's pending approvals, read from the inbox the server writes. */
  method PendingApprovalsFixed(s: Store) returns (subjects: seq<string>)
    ensures FirstApprovalSubjects(subjects, s.approvalInbox, Dashboard.ApprovalsShown)
  {
    var es := Select(s.approvalInbox, s.approvalInbox.Keys);
    var n := Min(Dashboard.ApprovalsShown, |es|);
    subjects := seq(n, i requires 0 <= i < n => es[i].val.subject);
  }

  /** Corrected: while at most three escalations wait, each one's subject is listed. */
  lemma FewEscalationsAllListed(subjects: seq<string>, inbox: map<string, Message>, k: string)
    requires FirstApprovalSubjects(subjects, inbox, Dashboard.ApprovalsShown)
    requires |inbox| <= Dashboard.ApprovalsShown && k in inbox
    ensures inbox[k].subject in subjects
  {
    var es: seq<Entry<string, Message>> :| Exact(es, inbox, inbox.Keys) && |subjects| == Min(Dashboard.ApprovalsShown, |es|)
      && forall i :: 0 <= i < |subjects| ==> subjects[i] == es[i].val.subject;
    assert |inbox.Keys| == |inbox|;
    var i :| 0 <= i < |es| && es[i].key == k;
    assert subjects[i] == inbox[k].subject;
  }

  /** Corrected: the first escalation into an empty approval inbox is the one approval the view lists. */
  lemma FirstEscalationListed(s: Store, m: Message, subjects: seq<string>)
    requires s.approvalInbox == map[] && m.requiresCeoApproval
    requires FirstApprovalSubjects(subjects, Server.SendMessage(s, m).approvalInbox, Dashboard.ApprovalsShown)
    ensures subjects == [m.subject]
  {

  }
}

=== FILE: listing.dfy ===
/**
  Directory listings. A glob over a directory yields its files in an order the
  file system chooses; the coordination layer then filters them and, for some
  listings, sorts them. A listing is modelled as a sequence of key/value entries
  that names every wanted key exactly once, and the sorts as insertion sorts
  whose results are permutations of their inputs.
*/
module Listing {
  import opened Text

  datatype Entry<K, V> = Entry(key: K, val: V)

  /** `es` lists the records of `m` stored under the keys in `S`: every such key once, with its record. */
  ghost predicate Exact<K, V>(es: seq<Entry<K, V>>, m: map<K, V>, S: set<K>) {
    && |es| == |S|
    && (forall i :: 0 <= i < |es| ==> es[i].key in S && es[i].key in m && m[es[i].key] == es[i].val)
    && (forall i, j :: 0 <= i < j < |es| ==> es[i].key != es[j].key)
    && (forall k :: k in S ==> exists i :: 0 <= i < |es| && es[i].key == k)
  }

  function Values<K, V>(es: seq<Entry<K, V>>): (vs: seq<V>)
    ensures |vs| == |es|
    ensures forall i :: 0 <= i < |es| ==> vs[i] == es[i].val
  {
    seq(|es|, i requires 0 <= i < |es| => es[i].val)
  }

  /** `vs` are the records stored under the keys in `S`, one per key, in some order. */
  ghost predicate Enumerates<K(!new), V(!new)>(vs: seq<V>, m: map<K, V>, S: set<K>) {
    exists es: seq<Entry<K, V>> :: Exact(es, m, S) && Values(es) == vs
  }

  lemma ExactExtend<K, V>(es: seq<Entry<K, V>>, m: map<K, V>, D: set<K>, k: K)
    requires Exact(es, m, D)
    requires k in m && k !in D
    ensures Exact(es + [Entry(k, m[k])], m, D + {k})
  {
    var es' := es + [Entry(k, m[k])];
    forall k' | k' in D + {k}
      ensures exists i :: 0 <= i < |es'| && es'[i].key == k'
    {
      if k' == k {
        assert es'[|es|].key == k';
      } else {
        var i :| 0 <= i < |es| && es[i].key == k';
        assert es'[i].key == k';
      }
    }
  }

  /** Walks the keys of `S` in whatever order the store yields them, collecting their records. */
  method Select<K, V>(m: map<K, V>, S: set<K>) returns (es: seq<Entry<K, V>>)
    requires S <= m.Keys
    ensures Exact(es, m, S)
  {
    es := [];
    var todo := S;
    while todo != {}
      invariant todo <= S
      invariant Exact(es, m, S - todo)
      decreases |todo|
    {
      var k :| k in todo;
      ExactExtend(es, m, S - todo, k);
      es := es + [Entry(k, m[k])];
      assert (S - todo) + {k} == S - (todo - {k});
      todo := todo - {k};
    }
  }

  /** Reads the records stored under the keys of `S`, in whatever order the store yields them. */
  method Enumerate<K(!new), V(!new)>(m: map<K, V>, S: set<K>) returns (vs: seq<V>)
    requires S <= m.Keys
    ensures Enumerates(vs, m, S)
  {
    var es := Select(m, S);
    ExactEnumerates(es, m, S);
    vs := Values(es);
  }

  lemma ExactEnumerates<K(!new), V(!new)>(es: seq<Entry<K, V>>, m: map<K, V>, S: set<K>)
    requires Exact(es, m, S)
    ensures Enumerates(Values(es), m, S)
  {

  }

  /** Every record an enumeration yields is stored under one of the wanted keys. */
  lemma EnumeratedRecord<K(!new), V(!new)>(vs: seq<V>, m: map<K, V>, S: set<K>, i: int)
    requires Enumerates(vs, m, S)
    requires 0 <= i < |vs|
    ensures exists k :: k in S && k in m && m[k] == vs[i]
  {

  }

  /** Every wanted record appears in an enumeration, and the enumeration has one item per wanted key. */
  lemma EnumerationCovers<K(!new), V(!new)>(vs: seq<V>, m: map<K, V>, S: set<K>, k: K)
    requires Enumerates(vs, m, S)
    requires k in S
    ensures k in m && m[k] in vs
    ensures |vs| == |S|
  {
    var es: seq<Entry<K, V>> :| Exact(es, m, S) && Values(es) == vs;
    var i :| 0 <= i < |es| && es[i].key == k;
    assert vs[i] == m[k];
  }

  // ----- counting in multisets -----

  lemma TwiceCountsTwice<T>(xs: seq<T>, i: int, j: int)
    requires 0 <= i < j < |xs| && xs[i] == xs[j]
    ensures multiset(xs)[xs[i]] >= 2
  {
    assert xs == xs[..j] + xs[j..];
    assert xs[..j][i] == xs[i];
    assert xs[j..][0] == xs[j];
    assert xs[i] in multiset(xs[..j]);
    assert xs[j] in multiset(xs[j..]);
  }

  lemma {:induction false} DistinctCountsOnce<T>(xs: seq<T>, x: T)
    requires forall i, j :: 0 <= i < j < |xs| ==> xs[i] != xs[j]
    ensures multiset(xs)[x] <= 1
  {
    if |xs| > 0 {
      assert xs == [xs[0]] + xs[1..];
      DistinctCountsOnce(xs[1..], x);
      if x == xs[0] {
        assert x !in xs[1..];
      }
    }
  }

  /** Reordering an exact listing keeps it exact: sorting neither loses nor repeats a record. */
  lemma ExactPermutation<K, V>(es: seq<Entry<K, V>>, r: seq<Entry<K, V>>, m: map<K, V>, S: set<K>)
    requires Exact(es, m, S)
    requires multiset(r) == multiset(es)
    ensures Exact(r, m, S)
  {
    assert |r| == |multiset(r)| == |multiset(es)| == |es|;
    forall i | 0 <= i < |r|
      ensures r[i].key in S && r[i].key in m && m[r[i].key] == r[i].val
    {
      assert r[i] in multiset(es);
      var j :| 0 <= j < |es| && es[j] == r[i];
    }
    forall i, j | 0 <= i < j < |r|
      ensures r[i].key != r[j].key
    {
      if r[i].key == r[j].key {
        assert r[i] == r[j];
        TwiceCountsTwice(r, i, j);
        DistinctCountsOnce(es, r[i]);
        assert false;
      }
    }
    forall k | k in S
      ensures exists i :: 0 <= i < |r| && r[i].key == k
    {
      var j :| 0 <= j < |es| && es[j].key == k;
      assert es[j] in multiset(r);
      var i :| 0 <= i < |r| && r[i] == es[j];
    }
  }

  // ----- sorting by an integer rank, highest first (Python: sorted(key=rank, reverse=True)) -----

  ghost predicate DescendingBy<T>(xs: seq<T>, rank: T -> int) {
    forall i, j :: 0 <= i < j < |xs| ==> rank(xs[i]) >= rank(xs[j])
  }

  /** A ranked element put in front of a descending sequence it outranks keeps it descending. */
  lemma ConsDescending<T>(y: T, ys: seq<T>, rank: T -> int)
    requires DescendingBy(ys, rank) && (|ys| == 0 || rank(y) >= rank(ys[0]))
    ensures DescendingBy([y] + ys, rank)
  {
    forall i, j | 0 <= i < j < |[y] + ys|
      ensures rank(([y] + ys)[i]) >= rank(([y] + ys)[j])
    {
      if i == 0 {
        assert ([y] + ys)[j] == ys[j - 1];
        assert rank(ys[0]) >= rank(ys[j - 1]) || j == 1;
      }
    }
  }

  function InsertByRank<T>(x: T, xs: seq<T>, rank: T -> int): (r: seq<T>)
    requires DescendingBy(xs, rank)
    ensures multiset(r) == multiset(xs) + multiset{x}
    ensures DescendingBy(r, rank)
    ensures |r| == |xs| + 1 && (r[0] == x || (|xs| > 0 && r[0] == xs[0]))
  {
    if |xs| == 0 || rank(x) >= rank(xs[0]) then
      ConsDescending(x, xs, rank);
      [x] + xs
    else
      var rest := InsertByRank(x, xs[1..], rank);
      assert xs == [xs[0]] + xs[1..];
      assert |xs| > 1 ==> rank(xs[0]) >= rank(xs[1]);
      ConsDescending(xs[0], rest, rank);
      [xs[0]] + rest
  }

  function SortByRank<T>(xs: seq<T>, rank: T -> int): (r: seq<T>)
    ensures multiset(r) == multiset(xs)
    ensures DescendingBy(r, rank)
  {
    if |xs| == 0 then []
    else
      assert xs == [xs[0]] + xs[1..];
      InsertByRank(xs[0], SortByRank(xs[1..], rank), rank)
  }

  // ----- sorting by a text key in code-point order (Python: sorted(key=key, reverse=descending)) -----

  predicate InOrder(a: string, b: string, descending: bool) {
    if descending then Le(b, a) else Le(a, b)
  }

  ghost predicate SortedByText<T>(xs: seq<T>, key: T -> string, descending: bool) {
    forall i, j :: 0 <= i < j < |xs| ==> InOrder(key(xs[i]), key(xs[j]), descending)
  }

  lemma InOrderTotal(a: string, b: string, descending: bool)
    ensures InOrder(a, b, descending) || InOrder(b, a, descending)
  {
    LeTotal(a, b);
  }

  lemma InOrderTransitive(a: string, b: string, c: string, descending: bool)
    requires InOrder(a, b, descending) && InOrder(b, c, descending)
    ensures InOrder(a, c, descending)
  {
    if descending {
      LeTransitive(c, b, a);
    } else {
      LeTransitive(a, b, c);
    }
  }

  /** Putting in front an element that comes before every element of a sorted sequence keeps it sorted. */
  lemma ConsSorted<T>(y: T, xs: seq<T>, key: T -> string, descending: bool)
    requires SortedByText(xs, key, descending)
    requires forall j :: 0 <= j < |xs| ==> InOrder(key(y), key(xs[j]), descending)
    ensures SortedByText([y] + xs, key, descending)
  {

  }

  function InsertByText<T>(x: T, xs: seq<T>, key: T -> string, descending: bool): (r: seq<T>)
    requires SortedByText(xs, key, descending)
    ensures multiset(r) == multiset(xs) + multiset{x}
    ensures SortedByText(r, key, descending)
  {
    if |xs| == 0 then
      [x]
    else if InOrder(key(x), key(xs[0]), descending) then
      InsertFront(x, xs, key, descending);
      [x] + xs
    else
      InOrderTotal(key(x), key(xs[0]), descending);
      var rest := InsertByText(x, xs[1..], key, descending);
      assert xs == [xs[0]] + xs[1..];
      InsertBehind(xs[0], x, xs[1..], rest, key, descending);
      [xs[0]] + rest
  }

  lemma InsertFront<T>(x: T, xs: seq<T>, key: T -> string, descending: bool)
    requires SortedByText(xs, key, descending)
    requires |xs| > 0 && InOrder(key(x), key(xs[0]), descending)
    ensures SortedByText([x] + xs, key, descending)
  {
    forall j | 0 <= j < |xs|
      ensures InOrder(key(x), key(xs[j]), descending)
    {
      if j > 0 {
        InOrderTransitive(key(x), key(xs[0]), key(xs[j]), descending);
      }
    }
    ConsSorted(x, xs, key, descending);
  }

  lemma InsertBehind<T>(y: T, x: T, tail: seq<T>, rest: seq<T>, key: T -> string, descending: bool)
    requires SortedByText([y] + tail, key, descending)
    requires SortedByText(rest, key, descending)
    requires InOrder(key(y), key(x), descending)
    requires multiset(rest) == multiset(tail) + multiset{x}
    ensures SortedByText([y] + rest, key, descending)
  {
    forall j | 0 <= j < |rest|
      ensures InOrder(key(y), key(rest[j]), descending)
    {
      assert rest[j] in multiset(rest);
      if rest[j] != x {
        assert rest[j] in multiset(tail);
        var k :| 0 <= k < |tail| && tail[k] == rest[j];
        assert ([y] + tail)[0] == y && ([y] + tail)[k + 1] == rest[j];
      }
    }
    ConsSorted(y, rest, key, descending);
  }

  function SortByText<T>(xs: seq<T>, key: T -> string, descending: bool): (r: seq<T>)
    ensures multiset(r) == multiset(xs)
    ensures SortedByText(r, key, descending)
  {
    if |xs| == 0 then []
    else
      assert xs == [xs[0]] + xs[1..];
      InsertByText(xs[0], SortByText(xs[1..], key, descending), key, descending)
  }
}

=== FILE: scenarios.dfy ===
/**
  How the three programs meet in the shared workspace: what one of them writes, the
  others read. Each lemma follows a record from the writer to the reader.
*/
module Scenarios {
  import opened Wrappers
  import opened Text
  import opened Listing
  import opened Workspace
  import Server
  import Dashboard
  import Agent

  /** A task the dashboard assigns to an agent waits in that agent's pending list. */
  lemma AssignedTaskReachesAgent(s: Store, agentType: string, description: string, now: Clock)
    ensures var t := Dashboard.AssignTask(s, Agent.AgentName(agentType), description, now);
            && Agent.AssignedPending(t.tasks, Agent.AgentName(agentType), Dashboard.TaskId(now))
            && Loc(Pending, Dashboard.TaskId(now)) in AssignedLocs(Flatten(t.tasks, [Pending]), Agent.AgentName(agentType))
  {

  }

  /** A task the dashboard assigns is also listed by the server for the agent. */
  lemma AssignedTaskListedByServer(s: Store, agent: string, description: string, now: Clock)
    ensures var t := Dashboard.AssignTask(s, agent, description, now);
            Loc(Pending, Dashboard.TaskId(now)) in AssignedLocs(Flatten(t.tasks, Server.ActiveBuckets), agent)
  {

  }

  /** What an agent last said it is doing is what the dashboard shows for it. */
  lemma AgentStatusShown(s: Store, agentType: string, text: string, now: Clock)
    ensures var t := Agent.UpdateStatus(s, agentType, text, now);
            && Agent.AgentName(agentType) in Server.GetTeamStatus(t)
            && Dashboard.CurrentTask(t.statuses[Agent.AgentName(agentType)]) == text
  {
  }

  /** A task the agent finishes is in that day's digest of completed tasks. */
  lemma FinishedTaskInDailyDigest(s: Store, agentType: string, task: Task, started: Clock, finished: Clock)
    requires Holds(s.tasks, Pending, task.id) && Coherent(finished)
    ensures var t := Agent.ProcessTask(s, agentType, task, started, finished);
            task.id in Server.CompletedOn(Bucket(t.tasks, Completed), finished.date)
  {

  }

  /**
    The lifecycle the server is built for: a fresh task created, taken by its assignee
    and completed ends in completed only, restamped, with one notice to the supervisor.
  */
  lemma CreateStartComplete(task: Task, t1: Clock, t2: Clock)
    ensures var s0 := Server.CreateTask(Initial(), task).store;
            var r1 := Server.UpdateTaskStatus(s0, task.id, InProgress, task.assignedTo, t1);
            var r2 := Server.UpdateTaskStatus(r1.store, task.id, Completed, task.assignedTo, t2);
            && r1.result.Success? && r2.result.Success?
            && (forall b :: Holds(r2.store.tasks, b, task.id) <==> b == Completed)
            && Holds(r2.store.tasks, Completed, task.id)
            && r2.store.tasks[Completed][task.id] == task.(status := Completed, updatedAt := t2.iso)
            && r2.store.notifications == map[t2.stamp := Notification(t2.iso, Server.InfoPriority, Server.StatusNotice(task.id, Completed))]
  {
    var s0 := Server.CreateTask(Initial(), task).store;
    assert UniqueIds(s0.tasks) by {
      forall b1, b2, k | Holds(s0.tasks, b1, k) && Holds(s0.tasks, b2, k)
        ensures b1 == b2
      {
        assert b1 == Pending && b2 == Pending;
      }
    }
    assert Server.SearchOrder[0] == Pending;
    assert Server.Source(s0.tasks, task.id) == Some(Pending);
    var r1 := Server.UpdateTaskStatus(s0, task.id, InProgress, task.assignedTo, t1);
    Server.UpdateKeepsIdsUnique(s0, task.id, InProgress, task.assignedTo, t1);
    assert Holds(r1.store.tasks, InProgress, task.id) && !Holds(r1.store.tasks, Pending, task.id);
    assert Server.SearchOrder[1] == InProgress;
    assert Server.Source(r1.store.tasks, task.id) == Some(InProgress);
    var r2 := Server.UpdateTaskStatus(r1.store, task.id, Completed, task.assignedTo, t2);
    Server.UpdateKeepsIdsUnique(r1.store, task.id, Completed, task.assignedTo, t2);
  }

  /** Along the same lifecycle, the task is on its assignee's list while in progress and off every list once completed. */
  lemma LifecycleListing(task: Task, t1: Clock, t2: Clock)
    ensures var s0 := Server.CreateTask(Initial(), task).store;
            var r1 := Server.UpdateTaskStatus(s0, task.id, InProgress, task.assignedTo, t1);
            var r2 := Server.UpdateTaskStatus(r1.store, task.id, Completed, task.assignedTo, t2);
            && Loc(InProgress, task.id) in AssignedLocs(Flatten(r1.store.tasks, Server.ActiveBuckets), task.assignedTo)
            && (forall l :: l in Flatten(r2.store.tasks, Server.ActiveBuckets) ==> l.id != task.id)
  {
    var s0 := Server.CreateTask(Initial(), task).store;
    var r1 := Server.UpdateTaskStatus(s0, task.id, InProgress, task.assignedTo, t1);
    var r2 := Server.UpdateTaskStatus(r1.store, task.id, Completed, task.assignedTo, t2);
    CreateStartComplete(task, t1, t2);
    assert Server.SearchOrder[0] == Pending;
    assert Server.Source(s0.tasks, task.id) == Some(Pending);
    InProgressListed(r1.store.tasks, task.id, task.assignedTo);
    CompletedNotListed(r2.store.tasks, task.id);
  }

  lemma InProgressListed(tasks: TaskTree, id: string, agent: string)
    requires Holds(tasks, InProgress, id) && tasks[InProgress][id].assignedTo == agent
    ensures Loc(InProgress, id) in AssignedLocs(Flatten(tasks, Server.ActiveBuckets), agent)
  {

  }

  lemma CompletedNotListed(tasks: TaskTree, id: string)
    requires forall b :: Holds(tasks, b, id) <==> b == Completed
    ensures forall l :: l in Flatten(tasks, Server.ActiveBuckets) ==> l.id != id
  {

  }

  /** A message the dashboard sends to an agent is in what the server hands that agent on its next receive. */
  lemma DashboardMessageReceived(s: Store, agent: string, text: string, now: Clock)
    ensures var t := Dashboard.SendMessage(s, agent, text, now);
            && MessageKey(agent, now.stamp) in Server.Inbox(t.messages, agent)
            && t.messages[MessageKey(agent, now.stamp)] == Dashboard.CeoMessage(agent, text, now)
  {

  }

  /**
    The recipient reading an escalated message does not remove the supervisor's copy:
    `read` is any workspace the recipient's receive can leave behind.
  */
  lemma EscalationOutlivesReceive(s: Store, m: Message, read: Store)
    requires m.requiresCeoApproval
    requires var t := Server.SendMessage(s, m);
             && read.messages.Keys == t.messages.Keys - Server.Inbox(t.messages, m.toAgent)
             && read == t.(messages := read.messages)
    ensures MessageKey(m.toAgent, m.timestamp) !in read.messages
    ensures Server.ApprovalKey(m.timestamp) in read.approvalInbox && read.approvalInbox[Server.ApprovalKey(m.timestamp)] == m
  {

  }
}

=== FILE: server.dfy ===
/**
  The coordination server (SharedWorkspaceMCP): the task lifecycle, the message
  channel with its escalation copy, product specs, agent statuses, the daily
  digest and the supervisor's notifications, all as transformations of the
  shared workspace. The clock is a parameter; the optional publish/subscribe
  hints are not modelled.
*/
module Server {
  import opened Wrappers
  import opened Text
  import opened Listing
  import opened Workspace

  /** The buckets whose tasks an agent still has to work on. */
  const ActiveBuckets: seq<string> := [Pending, InProgress, Review]

  /** The buckets searched for a task to update, in this order; blocked is not among them. */
  const SearchOrder: seq<string> := [Pending, InProgress, Review, Completed]

  /** The default notification priority, used for status-change notices. */
  const InfoPriority := "info"

  /** Pending tasks of at least this priority are listed in the daily digest. */
  const HighPriorityThreshold := 4

  // ===== Task management =====

  /**
    Writes the task into the pending bucket under its id and returns the id. There is
    no duplicate check: an existing pending record with that id is replaced, and a copy
    of the id in another bucket is left where it is.
  */
  function CreateTask(s: Store, task: Task): (r: Reply<string>)
    ensures r.result.Success? <==> Pending in s.tasks
    ensures r.result.Failure? ==> r == Reply(s, Failure(NoSuchBucket(Pending)))
    ensures r.result.Success? ==>
      && r.result.value == task.id
      && r.store.tasks.Keys == s.tasks.Keys
      && r.store.tasks[Pending] == s.tasks[Pending][task.id := task]
      && (forall b :: b != Pending ==> Bucket(r.store.tasks, b) == Bucket(s.tasks, b))
      && r.store == s.(tasks := r.store.tasks)
  {
    if Pending !in s.tasks then
      Reply(s, Failure(NoSuchBucket(Pending)))
    else
      Reply(s.(tasks := s.tasks[Pending := s.tasks[Pending][task.id := task]]), Success(task.id))
  }

  /**
    Creating a task whose id is already in progress leaves that copy in place: the id is
    then held by two buckets, and a later status update finds the pending copy first.
  */
  lemma CreateOverInProgressDuplicates(s: Store, task: Task)
    requires Pending in s.tasks && Holds(s.tasks, InProgress, task.id)
    ensures var t := CreateTask(s, task).store.tasks;
            && Holds(t, Pending, task.id) && Holds(t, InProgress, task.id)
            && !UniqueIds(t)
            && Source(t, task.id) == Some(Pending)
  {
    var t := CreateTask(s, task).store.tasks;
    assert Holds(t, Pending, task.id) && Holds(t, InProgress, task.id);
    assert SearchOrder[0] == Pending;
  }

  /** The tasks in pending, in_progress and review assigned to `agent`, highest priority first. */
  method GetAgentTasks(s: Store, agent: string) returns (r: seq<Task>)
    ensures Enumerates(r, Flatten(s.tasks, ActiveBuckets), AssignedLocs(Flatten(s.tasks, ActiveBuckets), agent))
    ensures ByPriority(r)
  {
    r := ListAssigned(s.tasks, ActiveBuckets, agent);
  }

  /** A created task is on its assignee's task list. */
  lemma CreatedTaskIsListed(s: Store, task: Task)
    requires Pending in s.tasks
    ensures Loc(Pending, task.id) in AssignedLocs(Flatten(CreateTask(s, task).store.tasks, ActiveBuckets), task.assignedTo)
  {

  }

  /** The index in `order` of the first bucket that holds `id`. */
  function FirstHolding(tasks: TaskTree, order: seq<string>, id: string): (r: Option<nat>)
    ensures r.None? <==> forall i :: 0 <= i < |order| ==> !Holds(tasks, order[i], id)
    ensures r.Some? ==> r.value < |order| && Holds(tasks, order[r.value], id)
    ensures r.Some? ==> forall i :: 0 <= i < r.value ==> !Holds(tasks, order[i], id)
  {
    if |order| == 0 then None
    else if Holds(tasks, order[0], id) then Some(0)
    else
      match FirstHolding(tasks, order[1..], id)
      case None => None
      case Some(i) => Some(i + 1)
  }

  /** The bucket an update finds task `id` in, if any. */
  function Source(tasks: TaskTree, id: string): (r: Option<string>)
    ensures r.None? <==> forall b :: b in SearchOrder ==> !Holds(tasks, b, id)
    ensures r.Some? ==> r.value in SearchOrder && Holds(tasks, r.value, id)
    // the first bucket of the search that holds the id: a copy in a later bucket is not the one found
    ensures r.Some? ==>
      exists i :: 0 <= i < |SearchOrder| && SearchOrder[i] == r.value && (forall j :: 0 <= j < i ==> !Holds(tasks, SearchOrder[j], id))
  {
    match FirstHolding(tasks, SearchOrder, id)
    case None => None
    case Some(i) => Some(SearchOrder[i])
  }

  function StatusNotice(id: string, status: string): string {
    "Task " + id + " is now " + status
  }

  /**
    Moves task `id` into bucket `newStatus` on behalf of `actor`: writes the restamped
    record into the new bucket, then deletes the file it was found in, then notifies the
    supervisor when the task became completed or blocked.
  */
  function UpdateTaskStatus(s: Store, id: string, newStatus: string, actor: string, now: Clock): (r: Reply<()>)
    // every failure leaves the workspace as it was
    ensures r.result.Failure? ==> r.store == s
    // not found: no searched bucket holds the id
    ensures r.result == Failure(NotFound(id)) <==> Source(s.tasks, id).None?
    ensures Source(s.tasks, id).Some? ==>
      var src := Source(s.tasks, id).value;
      var t := s.tasks[src][id];
      // only the assignee and the supervisor may move a task
      && (r.result == Failure(NotPermitted(actor, t.assignedTo)) <==> t.assignedTo != actor && actor != Ceo)
      // the target directory must exist
      && (r.result.Success? <==> (t.assignedTo == actor || actor == Ceo) && newStatus in s.tasks)
      // writing into a missing directory raises: the permitted update fails with the missing bucket
      && ((t.assignedTo == actor || actor == Ceo) && newStatus !in s.tasks ==>
            r.result == Failure(NoSuchBucket(newStatus)))
      // a real move: the record leaves its bucket and lands in the new one, restamped
      && (r.result.Success? && newStatus != src ==>
            Moved(s.tasks, r.store.tasks, id, src, newStatus, Restamped(t, newStatus, now)))
      // writing onto the same file and then deleting it loses the task
      && (r.result.Success? && newStatus == src ==>
            r.store.tasks == s.tasks[src := s.tasks[src] - {id}])
    // only tasks and notifications change
    ensures r.result.Success? ==> r.store == s.(tasks := r.store.tasks, notifications := r.store.notifications)
    // exactly one notice, of the default priority, for completed or blocked; none otherwise
    ensures r.result.Success? ==>
      r.store.notifications ==
        if newStatus == Completed || newStatus == Blocked
        then s.notifications[now.stamp := Notification(now.iso, InfoPriority, StatusNotice(id, newStatus))]
        else s.notifications
  {
    match Source(s.tasks, id)
    case None => Reply(s, Failure(NotFound(id)))
    case Some(src) =>
      var t := s.tasks[src][id];
      if t.assignedTo != actor && actor != Ceo then
        Reply(s, Failure(NotPermitted(actor, t.assignedTo)))
      else if newStatus !in s.tasks then
        Reply(s, Failure(NoSuchBucket(newStatus)))
      else
        var moved := s.(tasks := WriteThenDelete(s.tasks, id, src, newStatus, Restamped(t, newStatus, now)));
        var notified :=
          if newStatus == Completed || newStatus == Blocked
          then NotifyCeo(moved, StatusNotice(id, newStatus), InfoPriority, now)
          else moved;
        Reply(notified, Success(()))
  }

  /** A successful move between two different buckets keeps every id in one bucket and puts this one in the new bucket. */
  lemma UpdateKeepsIdsUnique(s: Store, id: string, newStatus: string, actor: string, now: Clock)
    requires UniqueIds(s.tasks)
    requires UpdateTaskStatus(s, id, newStatus, actor, now).result.Success?
    requires newStatus != Source(s.tasks, id).value
    ensures UniqueIds(UpdateTaskStatus(s, id, newStatus, actor, now).store.tasks)
    ensures forall b :: Holds(UpdateTaskStatus(s, id, newStatus, actor, now).store.tasks, b, id) <==> b == newStatus
  {
    var src := Source(s.tasks, id).value;
    var t := s.tasks[src][id];
    MovedKeepsIdsUnique(s.tasks, UpdateTaskStatus(s, id, newStatus, actor, now).store.tasks,
                        id, src, newStatus, Restamped(t, newStatus, now));
  }

  // ===== Messaging =====

  function ApprovalKey(timestamp: string): string {
    "approval_" + timestamp
  }

  /**
    Stores the message for its recipient and, when it needs the supervisor's approval,
    an independent copy in the supervisor's approval inbox.
  */
  function SendMessage(s: Store, m: Message): (t: Store)
    ensures MessageKey(m.toAgent, m.timestamp) in t.messages && t.messages[MessageKey(m.toAgent, m.timestamp)] == m
    ensures t.messages.Keys == s.messages.Keys + {MessageKey(m.toAgent, m.timestamp)}
    ensures forall k :: k in s.messages && k != MessageKey(m.toAgent, m.timestamp) ==> t.messages[k] == s.messages[k]
    ensures m.requiresCeoApproval ==> t.approvalInbox == s.approvalInbox[ApprovalKey(m.timestamp) := m]
    ensures !m.requiresCeoApproval ==> t.approvalInbox == s.approvalInbox
    ensures t == s.(messages := t.messages, approvalInbox := t.approvalInbox)
  {
    var delivered := s.(messages := s.messages[MessageKey(m.toAgent, m.timestamp) := m]);
    if m.requiresCeoApproval then
      delivered.(approvalInbox := s.approvalInbox[ApprovalKey(m.timestamp) := m])
    else
      delivered
  }

  /**
    The keys the glob `<agent>_*.json` matches. A file name is its stem plus ".json",
    so the pattern matches exactly the stems that begin with `agent + "_"`; this
    includes the messages of every agent whose name extends `agent + "_"`.
  */
  function Inbox(messages: map<string, Message>, agent: string): set<string> {
    set k | k in messages && StartsWith(k, agent + "_")
  }

  function TimestampOf(e: Entry<string, Message>): string {
    e.val.timestamp
  }

  /** Oldest first, comparing the timestamp strings. */
  predicate ByTimestamp(ms: seq<Message>) {
    forall i, j :: 0 <= i < j < |ms| ==> Le(ms[i].timestamp, ms[j].timestamp)
  }

  /**
    Reads every message whose key matches the agent's pattern, deletes each one it
    reads, and returns them oldest first. The approval copies are not touched.
  */
  method GetMessages(s: Store, agent: string) returns (r: seq<Message>, t: Store)
    ensures Enumerates(r, s.messages, Inbox(s.messages, agent))
    ensures ByTimestamp(r)
    ensures t.messages.Keys == s.messages.Keys - Inbox(s.messages, agent)
    ensures forall k :: k in t.messages ==> t.messages[k] == s.messages[k]
    ensures t == s.(messages := t.messages)
  {
    var wanted := Inbox(s.messages, agent);
    var es := Select(s.messages, wanted);
    var sorted := SortByText(es, TimestampOf, false);
    ExactPermutation(es, sorted, s.messages, wanted);
    ExactEnumerates(sorted, s.messages, wanted);
    r := Values(sorted);
    assert forall i :: 0 <= i < |sorted| ==> TimestampOf(sorted[i]) == r[i].timestamp;
    t := s.(messages := s.messages - wanted);
  }

  /** A message that was sent is waiting in its recipient's inbox, so the next receive returns it. */
  lemma SentMessageIsReceived(s: Store, m: Message)
    ensures MessageKey(m.toAgent, m.timestamp) in Inbox(SendMessage(s, m).messages, m.toAgent)
    ensures SendMessage(s, m).messages[MessageKey(m.toAgent, m.timestamp)] == m
  {

  }

  /** Receiving for "pm" also drains the messages of "pm_claude": the pattern is a prefix match. */
  lemma ReceiveMatchesLongerNames(messages: map<string, Message>, stamp: string)
    requires MessageKey("pm_claude", stamp) in messages
    ensures MessageKey("pm_claude", stamp) in Inbox(messages, "pm")
  {

  }

  /** A second receive with no send in between returns nothing: the first one consumed the inbox. */
  lemma SecondReceiveIsEmpty(before: map<string, Message>, after: map<string, Message>, agent: string, r: seq<Message>)
    requires after.Keys == before.Keys - Inbox(before, agent)
    requires Enumerates(r, after, Inbox(after, agent))
    ensures r == []
  {

  }

  // ===== Product specs =====

  /** Stores the spec under the product's name, stamped with the time; the last save wins. */
  function SaveProductSpec(s: Store, product: string, spec: Document, now: Clock): (t: Store)
    ensures product in t.specs && t.specs[product] == spec["updated_at" := now.iso]
    ensures forall p :: p != product ==> (p in t.specs <==> p in s.specs)
    ensures forall p :: p in s.specs && p != product ==> t.specs[p] == s.specs[p]
    ensures t == s.(specs := t.specs)
  {
    s.(specs := s.specs[product := spec["updated_at" := now.iso]])
  }

  function GetProductSpec(s: Store, product: string): (r: Option<Document>)
    ensures r.None? <==> product !in s.specs
    ensures r.Some? ==> r.value == s.specs[product]
  {
    if product in s.specs then Some(s.specs[product]) else None
  }

  /** Reading a spec back returns what was saved, with the save's time. */
  lemma SpecRoundTrip(s: Store, product: string, spec: Document, now: Clock)
    ensures GetProductSpec(SaveProductSpec(s, product, spec, now), product) == Some(spec["updated_at" := now.iso])
  {

  }

  /** Saving one product's spec does not change what any other product reads. */
  lemma SpecSavesAreIsolated(s: Store, product: string, other: string, spec: Document, now: Clock)
    requires other != product
    ensures GetProductSpec(SaveProductSpec(s, product, spec, now), other) == GetProductSpec(s, other)
  {

  }

  /** Two saves of one product: only the second is kept. */
  lemma SpecLastWriteWins(s: Store, product: string, first: Document, second: Document, t1: Clock, t2: Clock)
    ensures SaveProductSpec(SaveProductSpec(s, product, first, t1), product, second, t2)
         == SaveProductSpec(s, product, second, t2)
  {

  }

  // ===== Status and reporting =====

  /** Overwrites the agent's status record, stamped with the time. */
  function UpdateAgentStatus(s: Store, agent: string, status: Document, now: Clock): (t: Store)
    ensures agent in t.statuses && t.statuses[agent] == status["timestamp" := now.iso]
    ensures forall a :: a != agent ==> (a in t.statuses <==> a in s.statuses)
    ensures forall a :: a in s.statuses && a != agent ==> t.statuses[a] == s.statuses[a]
    ensures t == s.(statuses := t.statuses)
  {
    s.(statuses := s.statuses[agent := status["timestamp" := now.iso]])
  }

  /**
    The latest status record of every agent that ever reported, keyed by the status
    file's stem; a missing status directory gives an empty view.
  */
  function GetTeamStatus(s: Store): (r: map<string, Document>)
    ensures r.Keys == s.statuses.Keys
    ensures forall a :: a in r ==> r[a] == s.statuses[a]
  {
    s.statuses
  }

  /** The team view shows the latest write for the updated agent and leaves the rest of the team alone. */
  lemma TeamStatusShowsLatest(s: Store, agent: string, first: Document, second: Document, t1: Clock, t2: Clock)
    ensures GetTeamStatus(UpdateAgentStatus(UpdateAgentStatus(s, agent, first, t1), agent, second, t2))
         == GetTeamStatus(s)[agent := second["timestamp" := t2.iso]]
  {

  }

  function ReportKey(date: string): string {
    "daily_" + date
  }

  /** Completed tasks whose update time falls on `date`. */
  function CompletedOn(bucket: map<string, Task>, date: string): set<string> {
    set id | id in bucket && StartsWith(bucket[id].updatedAt, date)
  }

  function HighPriority(bucket: map<string, Task>): set<string> {
    set id | id in bucket && bucket[id].priority >= HighPriorityThreshold
  }

  /**
    `report` is a digest of `s` on the clock's day: it lists, each once and nothing else,
    the completed tasks updated that day, every in-progress task, the pending tasks of
    high priority and every escalation waiting in the approval inbox; blocked is empty.
  */
  ghost predicate IsDigest(s: Store, now: Clock, report: DailyReport) {
    DigestOf(s.tasks, s.statuses, s.approvalInbox, now.date, report)
  }

  /** A digest is determined by the tasks, the status records and the approval inbox it reads. */
  ghost predicate DigestOf(tasks: TaskTree, statuses: map<string, Document>, approvals: map<string, Message>, date: string, report: DailyReport) {
    && report.date == date
    && Enumerates(report.completedToday, Bucket(tasks, Completed), CompletedOn(Bucket(tasks, Completed), date))
    && Enumerates(report.inProgress, Bucket(tasks, InProgress), Bucket(tasks, InProgress).Keys)
    && report.blocked == []
    && Enumerates(report.pendingHighPriority, Bucket(tasks, Pending), HighPriority(Bucket(tasks, Pending)))
    && report.teamStatus == statuses
    && Enumerates(report.ceoDecisionsNeeded, approvals, approvals.Keys)
  }

  /**
    Builds the day's digest from the current workspace and stores it under the day's
    key, replacing an earlier digest of the same day. The blocked list is never filled:
    the digest only scans completed, in_progress and pending.
  */
  method GenerateDailyReport(s: Store, now: Clock) returns (report: DailyReport, t: Store)
    ensures IsDigest(s, now, report)
    ensures t == s.(reports := s.reports[ReportKey(now.date) := Daily(report)])
  {
    var completed := Bucket(s.tasks, Completed);
    var inProgress := Bucket(s.tasks, InProgress);
    var pending := Bucket(s.tasks, Pending);
    var done := Enumerate(completed, CompletedOn(completed, now.date));
    var working := Enumerate(inProgress, inProgress.Keys);
    var urgent := Enumerate(pending, HighPriority(pending));
    var decisions := Enumerate(s.approvalInbox, s.approvalInbox.Keys);
    report := DailyReport(now.date, done, working, [], urgent, GetTeamStatus(s), decisions);
    t := s.(reports := s.reports[ReportKey(now.date) := Daily(report)]);
  }

  /**
    Two digests on the same day, the second run on what the first left behind, leave one
    report for that day: the second. Filing the first digest changes nothing a digest
    reads, so the second is a digest of the original workspace as well.
  */
  lemma SameDayReportOverwrites(s: Store, first: Clock, second: Clock, r1: DailyReport, t1: Store, r2: DailyReport, t2: Store)
    requires first.date == second.date
    requires IsDigest(s, first, r1) && t1 == s.(reports := s.reports[ReportKey(first.date) := Daily(r1)])
    requires IsDigest(t1, second, r2) && t2 == t1.(reports := t1.reports[ReportKey(second.date) := Daily(r2)])
    ensures t2.reports.Keys == s.reports.Keys + {ReportKey(first.date)}
    ensures t2.reports[ReportKey(first.date)] == Daily(r2)
    ensures forall k :: k in s.reports && k != ReportKey(first.date) ==> t2.reports[k] == s.reports[k]
    ensures t2 == s.(reports := t2.reports)
    ensures IsDigest(s, first, r2)
  {
    SecondReportKept(s, ReportKey(first.date), Daily(r1), Daily(r2));
    assert t1.tasks == s.tasks && t1.statuses == s.statuses && t1.approvalInbox == s.approvalInbox;
  }

  /** Filing two reports under one key keeps the second and leaves every other report alone. */
  lemma SecondReportKept(s: Store, key: string, a: Report, b: Report)
    ensures var t := s.(reports := s.reports[key := a]);
            var u := t.(reports := t.reports[key := b]);
            && u.reports.Keys == s.reports.Keys + {key}
            && u.reports[key] == b
            && (forall k :: k in s.reports && k != key ==> u.reports[k] == s.reports[k])
            && u == s.(reports := u.reports)
  {
  }

  // ===== Supervisor interface =====

  /** Files a notification for the supervisor under the clock's stamp. */
  function NotifyCeo(s: Store, message: string, priority: string, now: Clock): (t: Store)
    ensures t.notifications.Keys == s.notifications.Keys + {now.stamp}
    ensures t.notifications[now.stamp] == Notification(now.iso, priority, message)
    ensures forall k :: k in s.notifications && k != now.stamp ==> t.notifications[k] == s.notifications[k]
    ensures t == s.(notifications := t.notifications)
  {
    s.(notifications := s.notifications[now.stamp := Notification(now.iso, priority, message)])
  }
}

=== FILE: text.dfy ===
/**
  The string operations the coordination layer relies on, with Python's meaning:
  prefix tests, `split(c)[0]`, slicing `s[:n]`, the code-point order used by `sorted`
  and `<`, and the decimal digits accepted by `str.isdigit` and `int`.
*/
module Text {

  function Min(a: nat, b: nat): nat {
    if a <= b then a else b
  }

  /** Python's `s.startswith(p)`. */
  predicate StartsWith(s: string, p: string) {
    |p| <= |s| && s[..|p|] == p
  }

  /** Python's `s.split(c)[0]`: the text before the first `c`, or all of `s` when there is none. */
  function Before(s: string, c: char): (r: string)
    ensures StartsWith(s, r)
    ensures c !in r
    ensures r == s || (|r| < |s| && s[|r|] == c)
  {
    if |s| == 0 || s[0] == c then ""
    else [s[0]] + Before(s[1..], c)
  }

  /** Python's slice `s[:n]` for a non-negative `n`. */
  function Take(s: string, n: nat): (r: string)
    ensures StartsWith(s, r)
    ensures |r| == Min(n, |s|)
  {
    if |s| <= n then s else s[..n]
  }

  /** Python's `a <= b` on `str`: lexicographic by code point, a proper prefix first. */
  predicate Le(a: string, b: string) {
    |a| == 0 || (|b| > 0 && (a[0] < b[0] || (a[0] == b[0] && Le(a[1..], b[1..]))))
  }

  lemma {:induction false} LeTotal(a: string, b: string)
    ensures Le(a, b) || Le(b, a)
  {
    if |a| > 0 && |b| > 0 && a[0] == b[0] {
      LeTotal(a[1..], b[1..]);
    }
  }

  lemma {:induction false} LeTransitive(a: string, b: string, c: string)
    requires Le(a, b) && Le(b, c)
    ensures Le(a, c)
  {
    if |a| > 0 && a[0] == b[0] && b[0] == c[0] {
      LeTransitive(a[1..], b[1..], c[1..]);
    }
  }

  lemma {:induction false} LeAntisymmetric(a: string, b: string)
    requires Le(a, b) && Le(b, a)
    ensures a == b
  {
    if |a| > 0 {
      LeAntisymmetric(a[1..], b[1..]);
      assert a == [a[0]] + a[1..];
      assert b == [b[0]] + b[1..];
    }
  }

  predicate IsDigit(c: char) {
    '0' <= c <= '9'
  }

  predicate AllDigits(s: string) {
    forall i :: 0 <= i < |s| ==> IsDigit(s[i])
  }

  /** Python's `s.isdigit()`, restricted to the ASCII digits. */
  predicate IsDigits(s: string) {
    |s| > 0 && AllDigits(s)
  }

  /** Python's `int(s)` on a string of decimal digits; leading zeros are allowed. */
  function DigitsValue(s: string): nat
    requires AllDigits(s)
  {
    if |s| == 0 then 0
    else DigitsValue(s[..|s| - 1]) * 10 + (s[|s| - 1] as int - '0' as int)
  }

  function DigitChar(d: nat): (c: char)
    requires d < 10
    ensures IsDigit(c)
  {
    (d + '0' as int) as char
  }

  /** Python's `str(n)` for a natural number. */
  function Decimal(n: nat): string
  {
    if n < 10 then [DigitChar(n)] else Decimal(n / 10) + [DigitChar(n % 10)]
  }

  /** `int(str(n)) == n`: the decimal rendering parses back to the number it renders. */
  lemma {:induction false} DecimalRoundTrip(n: nat)
    ensures IsDigits(Decimal(n))
    ensures DigitsValue(Decimal(n)) == n
  {
    if n >= 10 {
      DecimalRoundTrip(n / 10);
      var d := Decimal(n / 10);
      var s := d + [DigitChar(n % 10)];
      assert s[..|s| - 1] == d;
      assert forall i :: 0 <= i < |s| ==> IsDigit(s[i]) by {
        forall i | 0 <= i < |s|
          ensures IsDigit(s[i])
        {
          if i < |d| {
            assert s[i] == d[i];
          }
        }
      }
    }
  }

  /** Two keys built as `a + sep + t` with the same tail `sep + t` are equal only for equal `a`. */
  lemma SameTailSameHead(a: string, b: string, tail: string)
    requires a + tail == b + tail
    ensures a == b
  {
    assert |a| == |b|;
    assert a == (a + tail)[..|a|];
    assert b == (b + tail)[..|b|];
  }
}

=== FILE: workspace.dfy ===
/**
  The shared workspace: every record the server, the dashboard and the agents
  exchange, and the store that holds them. In the repository each record is a
  JSON file and each bucket a directory; here a bucket is a map from the file's
  stem to the record it holds, and the whole workspace is one immutable value
  that every operation takes and returns.
*/
module Workspace {
  import opened Wrappers
  import opened Text
  import opened Listing

  // Task buckets (directories under shared-workspace/tasks).
  const Pending := "pending"
  const InProgress := "in_progress"
  const Review := "review"
  const Completed := "completed"
  const Blocked := "blocked"

  /** The supervisory actor, allowed to move any task. */
  const Ceo := "ceo"

  /** A unit of work. `kind` is the record's "type" field. */
  datatype Task = Task(
    id: string,
    kind: string,
    title: string,
    description: string,
    assignedTo: string,
    createdBy: string,
    status: string,
    priority: int,
    createdAt: string,
    updatedAt: string)

  datatype Message = Message(
    fromAgent: string,
    toAgent: string,
    subject: string,
    content: string,
    timestamp: string,
    requiresCeoApproval: bool)

  datatype Notification = Notification(timestamp: string, priority: string, message: string)

  /** A free-form JSON object (status records, product specs, proposals); values kept as text. */
  type Document = map<string, string>

  /** Python's `d.get(key, default)` on a document. */
  function Get(d: Document, key: string, default: string): string {
    if key in d then d[key] else default
  }

  datatype DailyReport = DailyReport(
    date: string,
    completedToday: seq<Task>,
    inProgress: seq<Task>,
    blocked: seq<Task>,
    pendingHighPriority: seq<Task>,
    teamStatus: map<string, Document>,
    ceoDecisionsNeeded: seq<Message>)

  /** The reports directory holds the server's daily digests and the agents' per-task reports. */
  datatype Report =
    | Daily(daily: DailyReport)
    | TaskReport(taskId: string, taskTitle: string, completedBy: string, completedAt: string, results: string)

  /** The dashboard's record of a decision on a product proposal; `product` is null when the proposal has no name. */
  datatype Decision =
    | Approved(product: Option<string>, at: string, nextSteps: string)
    | Rejected(product: Option<string>, at: string, reason: string)
    | ModificationRequested(product: Option<string>, at: string, feedback: string)

  /**
    One reading of the clock: `datetime.now().isoformat()`, `str(datetime.now().timestamp())`
    and `datetime.now().date().isoformat()`.
  */
  datatype Clock = Clock(iso: string, stamp: string, date: string)

  /** A clock whose ISO time begins with its ISO date, as every real reading does. */
  predicate Coherent(c: Clock) {
    StartsWith(c.iso, c.date)
  }

  type TaskTree = map<string, map<string, Task>>

  /** Where a task record lives: its bucket and its file stem. */
  datatype Loc = Loc(bucket: string, id: string)

  datatype Store = Store(
    tasks: TaskTree,                            // shared-workspace/tasks/<bucket>/<id>; a bucket is present iff its directory exists
    messages: map<string, Message>,             // shared-workspace/messages/<to>_<stamp>
    approvalInbox: map<string, Message>,        // shared-workspace/ceo-office/inbox/approval_<timestamp>
    notifications: map<string, Notification>,  // shared-workspace/ceo-office/notifications/<stamp>
    specs: map<string, Document>,               // shared-workspace/specs/<product>
    statuses: map<string, Document>,            // shared-workspace/status/<agent>
    reports: map<string, Report>,               // shared-workspace/reports/<name>
    ceoInbox: map<string, Document>,            // <base>/ceo-office/inbox, read by the dashboard
    ceoApprovals: map<string, Decision>,        // <base>/ceo-office/approvals
    ceoDecisions: map<string, Decision>)        // <base>/ceo-office/decisions

  /** The workspace right after the server has set up its directories. */
  function Initial(): (s: Store)
    ensures Pending in s.tasks && InProgress in s.tasks && Completed in s.tasks
    ensures Review !in s.tasks && Blocked !in s.tasks
  {
    Store(map[Pending := map[], InProgress := map[], Completed := map[]],
          map[], map[], map[], map[], map[], map[], map[], map[], map[])
  }

  datatype Error =
    | NotFound(id: string)                      // ValueError: no bucket holds the task
    | NotPermitted(actor: string, owner: string) // PermissionError
    | NoSuchBucket(bucket: string)              // FileNotFoundError: the target directory does not exist

  /** The store after an operation, and what the operation returned or raised. */
  datatype Reply<T> = Reply(store: Store, result: Result<T, Error>)

  /** `after` is directory `before` with one file `k` written as `v`: created or replaced, every other file kept. */
  ghost predicate Stored<K, V>(before: map<K, V>, after: map<K, V>, k: K, v: V) {
    && after.Keys == before.Keys + {k}
    && after[k] == v
    && forall j :: j in before && j != k ==> after[j] == before[j]
  }

  /** The file stem of a message for `to` in the shared message directory. */
  function MessageKey(to: string, stamp: string): string {
    to + "_" + stamp
  }

  /** The records of one bucket; a bucket whose directory is missing lists as empty. */
  function Bucket(tasks: TaskTree, b: string): map<string, Task> {
    if b in tasks then tasks[b] else map[]
  }

  predicate Holds(tasks: TaskTree, b: string, id: string) {
    b in tasks && id in tasks[b]
  }

  function Locs(tasks: TaskTree, buckets: seq<string>): set<Loc> {
    set b, id | b in buckets && b in tasks && id in tasks[b] :: Loc(b, id)
  }

  /** The task records of the given buckets, addressed by location. */
  function Flatten(tasks: TaskTree, buckets: seq<string>): (m: map<Loc, Task>)
    ensures forall l :: l in m <==> l.bucket in buckets && Holds(tasks, l.bucket, l.id)
    ensures forall l :: l in m ==> Holds(tasks, l.bucket, l.id) && m[l] == tasks[l.bucket][l.id]
  {
    assert forall l: Loc :: l in Locs(tasks, buckets) <==> l.bucket in buckets && Holds(tasks, l.bucket, l.id) by {
      forall l: Loc | l.bucket in buckets && Holds(tasks, l.bucket, l.id)
        ensures l in Locs(tasks, buckets)
      {
        assert l == Loc(l.bucket, l.id);
      }
    }
    map l | l in Locs(tasks, buckets) :: tasks[l.bucket][l.id]
  }

  /** No task id is held by two buckets at once. */
  ghost predicate UniqueIds(tasks: TaskTree) {
    forall b1, b2, id :: Holds(tasks, b1, id) && Holds(tasks, b2, id) ==> b1 == b2
  }

  /**
    `after` is `before` with task `id` moved from bucket `src` into bucket `dst` as `rec`:
    it has left `src`, sits in `dst` (whose directory now exists), and nothing else moved.
  */
  ghost predicate Moved(before: TaskTree, after: TaskTree, id: string, src: string, dst: string, rec: Task) {
    && after.Keys == before.Keys + {dst}
    && Bucket(after, src) == Bucket(before, src) - {id}
    && Bucket(after, dst) == Bucket(before, dst)[id := rec]
    && (forall b :: b != src && b != dst ==> Bucket(after, b) == Bucket(before, b))
  }

  /** The task record as rewritten by a move: only its status and its update time change. */
  function Restamped(t: Task, status: string, now: Clock): (r: Task)
    ensures r.status == status && r.updatedAt == now.iso
    ensures r.(status := t.status, updatedAt := t.updatedAt) == t
  {
    t.(status := status, updatedAt := now.iso)
  }

  /**
    The file moves of both the server and the agents: write `rec` as task `id` into
    bucket `dst` (its directory present afterwards), then delete the file in `src`. When
    `src` and `dst` are the same bucket the delete removes the file just written.
  */
  function WriteThenDelete(tasks: TaskTree, id: string, src: string, dst: string, rec: Task): (r: TaskTree)
    requires Holds(tasks, src, id)
    ensures src != dst ==> Moved(tasks, r, id, src, dst, rec)
    ensures src == dst ==> r == tasks[src := tasks[src] - {id}]
  {
    var written := tasks[dst := Bucket(tasks, dst)[id := rec]];
    assert src == dst ==> written[src] - {id} == tasks[src] - {id};
    written[src := written[src] - {id}]
  }

  /** Moving a task keeps the one-bucket-per-id invariant and leaves the id in `dst` only. */
  lemma MovedKeepsIdsUnique(before: TaskTree, after: TaskTree, id: string, src: string, dst: string, rec: Task)
    requires UniqueIds(before) && Holds(before, src, id) && src != dst
    requires Moved(before, after, id, src, dst, rec)
    ensures UniqueIds(after)
    ensures forall b :: Holds(after, b, id) <==> b == dst
  {
    forall b | b != dst
      ensures !Holds(after, b, id)
    {
      if b == src {
        assert id !in Bucket(after, src);
      } else {
        assert !Holds(before, b, id);
        assert id !in Bucket(after, b) by {
          assert Bucket(after, b) == Bucket(before, b);
        }
      }
    }
    assert id in Bucket(after, dst);
    forall b1, b2, k | Holds(after, b1, k) && Holds(after, b2, k)
      ensures b1 == b2
    {
      if k != id {
        assert k in Bucket(after, b1) && k in Bucket(after, b2);
        assert Holds(before, b1, k) && Holds(before, b2, k);
      }
    }
  }

  // ----- listing the tasks of an agent (shared by the server and the agents) -----

  function PriorityOf(e: Entry<Loc, Task>): int {
    e.val.priority
  }

  /** The locations among `m` whose task is assigned to `agent`. */
  function AssignedLocs(m: map<Loc, Task>, agent: string): set<Loc> {
    set l | l in m && m[l].assignedTo == agent
  }

  /** Highest priority first. */
  predicate ByPriority(ts: seq<Task>) {
    forall i, j :: 0 <= i < j < |ts| ==> ts[i].priority >= ts[j].priority
  }

  /**
    Every task in the given buckets that is assigned to `agent`, each once, highest
    priority first (Python's stable `sorted(..., reverse=True)` over a directory walk).
  */
  method ListAssigned(tasks: TaskTree, buckets: seq<string>, agent: string) returns (r: seq<Task>)
    ensures Enumerates(r, Flatten(tasks, buckets), AssignedLocs(Flatten(tasks, buckets), agent))
    ensures ByPriority(r)
  {
    var m := Flatten(tasks, buckets);
    var wanted := AssignedLocs(m, agent);
    var es := Select(m, wanted);
    var sorted := SortByRank(es, PriorityOf);
    ExactPermutation(es, sorted, m, wanted);
    ExactEnumerates(sorted, m, wanted);
    r := Values(sorted);
    assert forall i :: 0 <= i < |sorted| ==> PriorityOf(sorted[i]) == r[i].priority;
  }
}

=== FILE: wrappers.dfy ===
/** Failure-carrying values: an absent record, or an operation that failed with an error. */
module Wrappers {

  /** A value that may be missing (Python's `None`). */
  datatype Option<+T> = None | Some(value: T) {
    function GetOr(default: T): T {
      match this
      case Some(v) => v
      case None => default
    }
  }

  /** The outcome of an operation that can raise an exception. */
  datatype Result<+R, +E> = Success(value: R) | Failure(error: E)
}
